=== FILE: README.md ===
# GeoExt layer store, as a verified state machine

`GeoExt.data.store.Layers` keeps an ExtJS store of layer records in step with
an OpenLayers layer collection. The sync runs in both directions:

- a layer added to or removed from the collection adds or removes its record;
- a record added, removed, loaded or cleared in the store changes the collection;
- a property changed on either side is copied to the other side for the
  record's `synchronizedProperties`.

Two guards, `_adding` and `_removing`, stop each event from echoing back.
A third flag, `_addRecords`, tells `onLoad` whether a load replaced the
store's records or appended to them.

The model is a functional state machine:

- `LayerStore.State` holds the store's records and the collection's layers as
  sequences of layer ids. A record is identified by the layer it wraps.
- It also holds the record fields and layer properties as maps, the set of
  layers whose `propertychange` the store listens to, and the three flags.
- Every handler is a pure function from one state to the next.
- Event delivery is synchronous. So a handler that mutates the other side
  calls that side's handler directly, at the point where the event fires.
  For example, `OnAddLayer` calls `StoreInsert`, which calls `OnAdd`, which
  may call `CollInsertAt`, which calls `OnAddLayer`.
- Termination of this mutual recursion is exactly the echo-suppression
  argument. The measure drops when a guard is raised.

Modules:

- `Wrappers`: `Option`.
- `Props`: property bags, and `synchronize`.
- `Seqs`: sequence helpers that mirror the collections' `indexOf`, `splice`
  and `remove`, plus lemmas about them.
- `LayerStore`: the state and every handler.
- `Mirror`: properties across handlers. These are the positional invariant,
  echo suppression, which property echoes are no-ops and which are not, and
  a few worked examples.

The reader (`proxy.reader.read`) is a function parameter. It maps a layer to
its records, a success flag and a total. `changeLayerFilterFn` is an optional
function parameter.

## Model

| member | source | states |
|---|---|---|
| Props.Synchronize | src/data/store/Layers.js:517-522 | afterwards the destination holds the source's value for the key. `set` is called exactly when the two values differed, and no other key changes. |
| Props.SynchronizeIdempotent | src/data/store/Layers.js:517-522 | a second `synchronize` with the same source and key never calls `set`. |
| Props.SyncListed | src/data/store/Layers.js:405-409 | every name that is both given and listed is copied from the source. Every other key keeps its value. When nothing differed the bag is returned untouched. |
| Seqs.IndexOf | src/data/store/Layers.js:238 | `indexOf` finds a position exactly when the element is present. That position holds the element, and no earlier position does. |
| Seqs.Insert | src/data/store/Layers.js:344 | `insertAt`/`insert` keep the elements before the index and shift the rest after the inserted ones. An index past the end appends. |
| Seqs.InsertEachReverses | src/data/store/Layers.js:338-346 | inserting several layers one by one at the same inner index leaves them there in reverse order. |
| LayerStore.GetByLayer | src/data/store/Layers.js:444-459 | without a filter, a record is found exactly when the layer has one, and it is that layer's record. With a filter, nothing is found exactly when no record passes it. Otherwise the first record that passes is found. |
| LayerStore.BindLayer | src/data/store/Layers.js:164-170 | the layer becomes subscribed. Each synchronized property is copied from the layer into the given record. No other record's fields and no other state change. |
| LayerStore.MirrorDescription | src/data/store/Layers.js:217-221 | the record's `qtip` gets the layer's description, and so does its `description` when that is listed. No other field changes. |
| LayerStore.MirrorKey | src/data/store/Layers.js:222-223 | the record's field gets the layer's value. When the values already agree, the state is unchanged. |
| LayerStore.OnChangeLayer | src/data/store/Layers.js:209-228 | no record found means no change. Otherwise `description` goes to `qtip` (and to `description` when listed), a listed key is copied, and an unlisted key only fires the generic update. The record is located through the filter when one is configured. |
| LayerStore.OnAddLayer | src/data/store/Layers.js:236-247 | unguarded, the layer's read records are inserted at the layer's index and carry the reader's fields. Guarded, the records are untouched. In both cases the layer is subscribed, its record is in sync, and `adding` is restored. Only the synchronized fields of the layer's own record are rewritten. Every other record keeps its fields. |
| LayerStore.StoreInsert | src/data/store/Layers.js:333-349 | `insert` places the records at the clamped index, carrying the reader's fields. Unless adding, the collection receives their layers through `onAdd`. Each added record is then in sync with its layer, only its synchronized fields differ from what was read, and every other record keeps its fields. |
| LayerStore.AddFields | src/data/store/Layers.js:242-243 | records brought into the store, by `insert` here and by `loadRecords` at line 506, carry their own fields. A layer's entry is that of the last such record for it, and every other entry is unchanged. |
| LayerStore.AddFieldsConcat | src/data/store/Layers.js:112-114 | adding records in two batches, as successive loads do, gives every layer the same fields as adding them in one. |
| LayerStore.OnAdd | src/data/store/Layers.js:333-349 | guarded, nothing changes. Unguarded, the layers are appended (index 0) or each inserted at the index. They are subscribed, their records are in sync, records already in sync stay so, and `adding` is dropped again. |
| LayerStore.AddLoop | src/data/store/Layers.js:338-346 | the loop leaves the collection equal to `Added(layers, recs, index)` and subscribes every added layer. |
| LayerStore.AddOne | src/data/store/Layers.js:339-345 | one iteration binds the layer, then pushes it (index 0) or inserts it at the index. |
| LayerStore.CollInsertAt | src/data/store/Layers.js:236-247 | `insertAt` splices the layer in. The echoed `onAddLayer` inserts its records, with the reader's fields, at the layer's new position unless already adding. Only the synchronized fields of the layer's own record are rewritten, and every other record keeps its fields. |
| LayerStore.OnRemoveLayer | src/data/store/Layers.js:255-267 | only when not removing and the layer has a record: the record is removed and the layer unsubscribed, and the collection is untouched. Otherwise the state is unchanged. |
| LayerStore.StoreRemove | src/data/store/Layers.js:360-387 | `remove` drops the record. Unless removing, the echoed `onRemove` takes its layer out of the collection and unsubscribes it. A record not in the store changes nothing. |
| LayerStore.OnRemove | src/data/store/Layers.js:360-387 | guarded, nothing changes. Unguarded, each removed record's layer is unsubscribed and removed from the collection when present. Nothing else changes. |
| LayerStore.RemoveLoop | src/data/store/Layers.js:374-385 | the loop removes each record's layer in turn and unsubscribes every one. |
| LayerStore.RemoveOne | src/data/store/Layers.js:375-384 | one iteration unsubscribes the layer and removes it when the collection still holds it. |
| LayerStore.RemoveMapLayer | src/data/store/Layers.js:420-422 | the layer leaves the collection. The echoed `onRemoveLayer` removes its record only when not removing. |
| LayerStore.OnReplace | src/data/store/Layers.js:432-434 | the replaced record's layer leaves the collection, with no guard checked. The echoed `onRemoveLayer` removes a record and unsubscribes the layer only when not removing and the layer still has a record. Otherwise only the collection changes, and the layer stays subscribed. |
| LayerStore.OnReplaceUnsubscribing | src/data/store/Layers.js:432-434 | corrected `onReplace`: the same, except that the replaced layer is always unsubscribed. |
| LayerStore.CollClear | src/data/store/Layers.js:319 | with `removing` raised, `clear` empties the collection and every echoed `onRemoveLayer` is a no-op. |
| LayerStore.CollExtend | src/data/store/Layers.js:300-302 | with `adding` raised, `extend` appends the layers in order and subscribes them. The records stay as they are, and records in sync stay so. |
| LayerStore.OnClear | src/data/store/Layers.js:313-321 | the collection is emptied and every one of its layers unsubscribed, and `removing` is back down afterwards. |
| LayerStore.StoreClear | src/data/store/Layers.js:313-321 | `removeAll` empties both sides. |
| LayerStore.BindEach | src/data/store/Layers.js:295-299 | every loaded record's layer is subscribed and in sync with its record. |
| LayerStore.OnLoad | src/data/store/Layers.js:278-306 | corrected `onLoad`: after a successful load, the layers are the old ones (append) or none (replace), followed by the loaded records' layers in order. Replaced layers are unsubscribed, the loaded ones subscribed and in sync. Only the loaded records' synchronized fields are rewritten. `addRecords` is dropped whether or not the load succeeded. |
| LayerStore.OnLoadAsWritten | src/data/store/Layers.js:278-291 | a successful load that is not an append throws at line 289. At that point `removing` is raised and every layer unsubscribed, but nothing is cleared or added. Every other load is the corrected `onLoad`. |
| LayerStore.ExtendLoaded | src/data/store/Layers.js:292-303 | the loaded layers are appended to the collection in order, subscribed and in sync. Only their records' synchronized fields are rewritten, and `adding` is down afterwards. |
| LayerStore.LoadRecords | src/data/store/Layers.js:485-490 | `addRecords` is raised exactly for an append, and the records are replaced or extended. |
| LayerStore.LoadRawData | src/data/store/Layers.js:499-509 | a failed read changes nothing. A successful one records the total and loads the records, and once bound it leaves the collection as `onLoad` prescribes. |
| LayerStore.OnStoreUpdate | src/data/store/Layers.js:400-412 | only an EDIT with a field list writes, and only listed modified fields go to the layer. Other layers and other keys are untouched, and fields that already agree cause no write. |
| LayerStore.SetLayerProperty | src/data/store/Layers.js:209-228 | an unchanged value does nothing. A changed value reaches `onChangeLayer` only when the layer is subscribed. |
| LayerStore.SetRecordField | src/data/store/Layers.js:400-412 | an unchanged value does nothing. A changed field of a stored record reaches `onStoreUpdate` as a one-field EDIT. |
| LayerStore.LoadEach | src/data/store/Layers.js:112-114 | the initial appends add every successful read's records in order, with the fields the reader gave them. `totalCount` is that of the last successful read. They raise `addRecords` when any read succeeds. Nothing else changes. |
| LayerStore.ReadRecs | src/data/store/Layers.js:499-509 | the records that a series of reads brings in are exactly those of the successful reads, in order. |
| LayerStore.LastTotal | src/data/store/Layers.js:504-505 | after a series of reads, `totalCount` is the total of the last successful read, or unchanged when none succeeds. |
| LayerStore.Unrecorded | src/data/store/Layers.js:116-118 | finds the first layer without a record, and finds nothing exactly when every layer has one. |
| LayerStore.BindFound | src/data/store/Layers.js:116-118 | the loop throws exactly when some layer has no record. It subscribes the layers up to and including the first one without a record, and none after it. When it completes, every layer is in sync with its record. Records in sync stay so. Only the synchronized fields of the records bound before it stops can change. |
| LayerStore.BindLayersAsWritten | src/data/store/Layers.js:100-136 | the collection is adopted (a held one wins, a group is unwrapped) and read into records. When every layer then has a record, every layer is bound, the store is bound and `bind` fires. Otherwise binding throws at the first layer without one: later layers stay unsubscribed, the store stays unbound and `bind` does not fire. Either way the records carry the reader's fields, and only the synchronized fields of the records bound before any throw are rewritten. `totalCount` is that of the last successful read. `addRecords` is left raised when any read succeeded. |
| LayerStore.BindLayers | src/data/store/Layers.js:100-136 | the same, with `addRecords` down afterwards. |
| Mirror.InsertLayerNoEcho | src/data/store/Layers.js:236-247 | a new layer inserted into the collection appears exactly once, at that index. Its records are inserted at the same index, and `adding` is down again. |
| Mirror.RemoveLayerNoEcho | src/data/store/Layers.js:255-267 | a layer leaving the collection takes its record out of the store. The echo removes nothing more, and `removing` is down again. |
| Mirror.OnAddBindsEach | src/data/store/Layers.js:333-349 | every added record's layer is in the collection, subscribed and in sync. The records are untouched, and `adding` is down again. |
| Mirror.OnRemoveExact | src/data/store/Layers.js:360-387 | on a collection without repeats, the removed records' layers leave it and are unsubscribed. Every other layer stays, in its order. |
| Mirror.LayerChangeEchoIsNoOp | src/data/store/Layers.js:222-223 | without a filter, after a listed key other than `description` is copied to its record, the `update` that this write fires changes nothing. |
| Mirror.RecordEditEchoIsNoOp | src/data/store/Layers.js:405-409 | without a filter, after a listed field other than `description` is copied to a layer, the `propertychange` that this write fires changes nothing. |
| Mirror.DescriptionEditEchoes | src/data/store/Layers.js:217-218 | an edited `description` field reaches the layer. The `propertychange` that this write fires then sets the record's `qtip`, which the edit left unchanged, so this echo is not a no-op. |
| Mirror.FilteredChangeEchoesElsewhere | src/data/store/Layers.js:209-228 | with a filter that picks another layer's record, a listed change is copied to that record. The `update` that this write fires then copies the value on to the other layer, so this echo is not a no-op either. |
| Mirror.InsertLayerKeepsMirror | src/data/store/Layers.js:236-247 | when records equal layers position by position, inserting a new layer keeps them equal. |
| Mirror.RemoveLayerKeepsMirror | src/data/store/Layers.js:255-267 | removing a layer from the collection keeps records and layers equal, and the layer is gone. |
| Mirror.StoreInsertKeepsMirror | src/data/store/Layers.js:333-349 | inserting one new record at an inner or end index (or into an empty store) keeps the two sides equal. |
| Mirror.StoreRemoveKeepsMirror | src/data/store/Layers.js:360-387 | removing a record from the store keeps the two sides equal. |
| Mirror.StoreClearKeepsMirror | src/data/store/Layers.js:313-321 | clearing the store keeps the two sides equal. |
| Mirror.LoadKeepsMirror | src/data/store/Layers.js:278-306 | a successful load replaces both sides with the loaded layers, or appends them to both sides when it is an append. A failed load changes nothing. |
| Mirror.HeadInsertAppendsLayer | src/data/store/Layers.js:341-342 | a record inserted at index 0 of a non-empty store goes first in the store but last in the collection, so the two sides stop corresponding. |
| Mirror.InnerInsertReverses | src/data/store/Layers.js:338-346 | several records inserted at one inner index appear in the collection in reverse order. |
| Mirror.BindMirrors | src/data/store/Layers.js:100-136 | binding a fresh store to distinct layers completes. It gives one record per layer, in the same order, each layer subscribed and in sync, and the store is bound. |
| Mirror.BindStopsAtUnreadLayer | src/data/store/Layers.js:116-118 | when layer 1 of [1, 2] reads no record, binding throws at layer 1. Layer 2 is left unsubscribed, the store unbound and no `bind` fired. |
| Mirror.PushThenRemoveRecord | src/data/store/Layers.js:236-247 | starting from [1, 2], pushing layer 3 gives records [1, 2, 3]. Removing record 2 then leaves layers [1, 3]. |
| Mirror.VisibilityMirrored | src/data/store/Layers.js:222-223 | a subscribed layer turning invisible makes its record invisible, with no generic update fired. |
| Mirror.DescriptionMirrored | src/data/store/Layers.js:217-221 | a new description reaches the record's `qtip`, and its `description` when that is listed. |
| Mirror.UnlistedChangeSignals | src/data/store/Layers.js:224-226 | an unlisted property change writes no record field and fires exactly one generic update. |
| Mirror.BindLeavesAddRecords | src/data/store/Layers.js:112-114 | as written, binding to [1] leaves `addRecords` raised. A later load of layer 2 that is not an append gives records [2] but layers [1, 2]. |
| Mirror.BindThenLoadReplaces | src/data/store/Layers.js:284-291 | with the flag dropped after binding and the collection cleared as `onClear` does, a load that is not an append replaces both sides with the loaded layers. |
| Mirror.ReplaceKeepsListener | src/data/store/Layers.js:432-434 | as written, when the replaced record's layer has no record left, the layer leaves the collection but stays subscribed. A later change to it, with a filter that picks record `m`, still rewrites `m`. |
| Mirror.ReplaceDropsListener | src/data/store/Layers.js:432-434 | with the corrected `onReplace`, the layer leaves the collection and is unsubscribed. A later change to it writes no record and fires nothing. |
| Mirror.LoadThrowLeavesRemovingRaised | src/data/store/Layers.js:284-290 | as written, a load that is not an append leaves `removing` raised and every layer unsubscribed. A layer then taken out of the collection keeps its record in the store. |

## Left out

- Registration of the store's, the data's and the collection's own listeners is not modelled, and neither are `unbindLayers`, `unbindMap` and `destroy`. Once bound, every handler is assumed to be listening. Per-layer `propertychange` subscriptions are modelled, as `subscribed`. `bound` only decides whether `loadRawData` reaches `onLoad`, because that is where the order of registration changes behaviour.
- `bindMap` and the constructor are not modelled. They only choose between a map's layers and a configured collection. `LayerStore.Adopt` and `LayerStore.Flatten` cover the choice of collection and the unwrapping of a layer group.
- Class plumbing is not modelled: `Ext.define`, the config block and the debug symbol list.
- The internals of ExtJS and OpenLayers are not modelled. These include the reader, `findBy`, `insert`, `remove` and `loadRecords` of the store, and the collection's own events. The reader is a parameter. `insert` and `insertAt` clamp an index past the end, as `splice` does.
- LayerStore.OnLoad: the corrected load clears the bound collection, as `onClear` does at line 319, where line 289 throws. `LayerStore.OnLoadAsWritten` models the throw. The rest of the model, and every later step, uses the corrected load.
- LayerStore.BindLayer: when no record is found, the source throws after subscribing. `BindLayer` returns the state at that point. `BindFound` meets this case and stops there. `OnAddLayer` meets it too, see the next line. On every other path `bindLayer` is given a record that exists.
- LayerStore.OnAddLayer: when not adding and the reader gives no record for the layer, line 246 passes no record to `bindLayer`, which throws at line 167. The exception then leaves the collection's `insertAt` or `push`. The model returns the state the source has at that throw: records inserted, `adding` down and the layer subscribed. It does not report the exception.
- Props.Synchronize: values are a small datatype compared structurally, where line 519 compares with `!==`. So a NaN value, which the source finds unequal to itself and sets on every call, is set only when it changed. Two equal but distinct objects, which the source sets, are not set. `Props.SynchronizeIdempotent` holds only in this value domain.
- Property echoes are not part of the call chain. These are `record.set` firing `update`, and `layer.set` firing `propertychange`. `Mirror.LayerChangeEchoIsNoOp` and `Mirror.RecordEditEchoIsNoOp` show that such an echo changes nothing, for keys other than `description` and without a filter. In the other cases the echo can change the state, as `Mirror.DescriptionEditEchoes` and `Mirror.FilteredChangeEchoesElsewhere` show, and the model does not follow it.
- LayerStore.OnChangeLayer: the `update` that its record write fires is not followed. That echo changes the state when a filter picks another layer's record, as `Mirror.FilteredChangeEchoesElsewhere` shows.
- LayerStore.OnStoreUpdate: the `propertychange` that its layer write fires is not followed. For `description`, that echo sets the record's `qtip`, as `Mirror.DescriptionEditEchoes` shows. With a filter, it can write another record.
- LayerStore.SetRecordField: ends with `OnStoreUpdate`, so the same `propertychange` echo is not followed.
- Records are identified by their layer, and the filter sees records only through their layers. Nothing stops `records` from holding a layer twice, for instance when `onAddLayer` reads a layer that already has a record. Such records then share one field bag, where the source has two record objects.
- LayerStore.RecordFor: `changeLayerFilterFn` is applied to record ids, not to record objects with fields.
- The `bind` and generic `update` events are only appended to a signal log. Their listeners are not modelled.
- LayerStore.BindLayers: a second `bindLayers` on a bound store is not modelled (`requires !s.bound`), since it would register every listener twice.
- Integer widths and `totalCount` arithmetic are not modelled. `total` is the reader's value, copied.

## Findings

| source | as written | input that shows it | evidently intended | confidence | as-written member | corrected member |
|---|---|---|---|---|---|---|
| src/data/store/Layers.js:112-114 | `bindLayers` calls `loadRawData(layer, true)` before it registers `onLoad` (lines 122-123). The `_addRecords` flag raised by `loadRecords` (line 487) is therefore not dropped until the next load's `onLoad` (line 305). | bind to a collection holding layer 1, then load layer 2 without append. The store then holds [2] but the collection holds [1, 2]. | the first load after binding that is not an append replaces the collection, as `onLoad` does for every later one | medium, not executed | Mirror.BindLeavesAddRecords (on LayerStore.BindLayersAsWritten) | LayerStore.BindLayers, with Mirror.BindThenLoadReplaces |
| src/data/store/Layers.js:432-434 | `onReplace` only removes the old record's layer from the collection. The echoed `onRemoveLayer` unsubscribes the layer only when it still finds a record for it (lines 259-265), and after a replace it usually does not. | the replaced record's layer 1 has no record left and is subscribed. After the replace it is out of the collection, but a change to it still reaches `onChangeLayer`, and with a filter rewrites another record. | a record that leaves the store unsubscribes its layer, as `onRemove` does at line 378 for every record removed with `remove`. The replace path reaches only `onRemoveLayer`, whose `un` at line 262 sits inside `if (rec)`, so it misses exactly this case. | low, not executed | Mirror.ReplaceKeepsListener (on LayerStore.OnReplace) | LayerStore.OnReplaceUnsubscribing, with Mirror.ReplaceDropsListener |
| src/data/store/Layers.js:289 | `onLoad` calls `me.layers.getLayers()`, but `me.layers` is a collection, because `bindLayers` unwraps a group at lines 107-109. A collection has no `getLayers`, so this throws a TypeError. The throw comes after `_removing` is raised and every layer unsubscribed, and before `delete me._removing`. | any successful load that is not an append, on a bound store whose flag is down. Afterwards `removing` stays raised, so removing a layer from the collection no longer removes its record. | the collection is cleared, as `onClear` does with `me.layers.clear()` at line 319, and the guard is dropped | medium, not executed | Mirror.LoadThrowLeavesRemovingRaised (on LayerStore.OnLoadAsWritten) | LayerStore.OnLoad, with Mirror.LoadKeepsMirror |

=== FILE: mirror.dfy ===
/**
 * What the synchronizer guarantees across handlers: the store and the layer
 * collection stay equal position by position under the events that keep
 * them so, echoes come back as no-ops, and a few worked examples hold.
 */
module Mirror {
  import opened Wrappers
  import opened Props
  import opened Seqs
  import opened LayerStore

  /**
   * Records and layers correspond position by position, no layer appears
   * twice, no guard is raised and the listeners are registered.
   */
  predicate Mirrored(s: State)
  {
    && s.records == s.layers
    && Distinct(s.layers)
    && !s.adding && !s.removing && !s.addRecords
    && s.bound
  }

  /** The reader builds exactly one record, wrapping the layer itself. */
  predicate ReadsOwnLayer(reader: Reader, l: LayerId)
  {
    reader(l).success && |reader(l).records| == 1 && reader(l).records[0].layer == l
  }

  lemma OwnLayerRead(reader: Reader, l: LayerId)
    requires ReadsOwnLayer(reader, l)
    ensures LayersOf(reader(l).records) == [l]
  {
  }

  lemma {:induction false} ReadAllOwn(reader: Reader, ls: seq<LayerId>)
    requires forall l :: l in ls ==> ReadsOwnLayer(reader, l)
    ensures ReadAll(reader, ls) == ls
    decreases |ls|
  {
    if |ls| > 0 {
      OwnLayerRead(reader, ls[0]);
      ReadAllOwn(reader, ls[1..]);
      assert ls == [ls[0]] + ls[1..];
    }
  }

  // ---------------------------------------------------------------------
  // Echo suppression.

  /**
   * A layer put into the collection where it was not yet inserts its
   * records into the store at the layer's position; the store's `add` echo
   * puts no second layer into the collection, and `adding` is down again.
   */
  lemma InsertLayerNoEcho(s: State, i: nat, l: LayerId, reader: Reader)
    requires !s.adding && l !in s.layers && i <= |s.layers|
    ensures var r := CollInsertAt(s, i, l, reader);
            && r.layers == Insert(s.layers, i, [l])
            && r.records == Insert(s.records, i, LayersOf(reader(l).records))
            && !r.adding && l in r.subscribed
  {
    IndexOfInserted(s.layers, i, l);
  }

  /**
   * A layer leaving the collection takes its record out of the store; the
   * store's `remove` echo takes nothing more out of the collection.
   */
  lemma RemoveLayerNoEcho(s: State, l: LayerId)
    requires !s.removing && l in s.layers && l in s.records
    ensures var r := RemoveMapLayer(s, l);
            && r.layers == RemoveFirst(s.layers, l)
            && r.records == RemoveFirst(s.records, l)
            && l !in r.subscribed && !r.removing
  {
  }

  /**
   * `onAdd` makes every added record's layer a member of the collection,
   * subscribed and in sync with its record, and drops `adding` again.
   */
  lemma OnAddBindsEach(s: State, recs: seq<LayerId>, index: nat, reader: Reader)
    requires !s.adding
    ensures var r := OnAdd(s, recs, index, reader);
            && !r.adding && r.records == s.records
            && forall x :: x in recs ==> x in r.layers && x in r.subscribed && InSync(r, x)
  {
    InsertEachMembers(s.layers, index, recs);
  }

  /**
   * On a collection without repeats, `onRemove` takes out exactly the
   * removed records' layers that were present and keeps the other layers
   * in their order; each removed layer is unsubscribed.
   */
  lemma OnRemoveExact(s: State, recs: seq<LayerId>)
    requires !s.removing && Distinct(s.layers)
    ensures var r := OnRemove(s, recs);
            && r.layers == Without(s.layers, Elems(recs))
            && r.records == s.records
            && forall x :: x in recs ==> x !in r.layers && x !in r.subscribed
  {
    RemoveEachDistinct(s.layers, recs);
    forall x | x in recs ensures x !in Without(s.layers, Elems(recs)) {
      WithoutMembers(s.layers, Elems(recs), x);
    }
  }

  /** A key copied from a layer to its record comes back through the store's `update` as a no-op. */
  lemma LayerChangeEchoIsNoOp(s: State, l: LayerId, key: Key)
    requires l in s.records && key in s.synced && key != "description"
    ensures var r := OnChangeLayer(s, l, key, None);
            OnStoreUpdate(r, l, Edit, Some([key])) == r
  {
  }

  /** A field copied from a record to its layer comes back through `propertychange` as a no-op. */
  lemma RecordEditEchoIsNoOp(s: State, l: LayerId, names: seq<Key>, key: Key)
    requires l in s.records && key in names && key in s.synced && key != "description"
    ensures var r := OnStoreUpdate(s, l, Edit, Some(names));
            OnChangeLayer(r, l, key, None) == r
  {
  }

  /**
   * A record edit of `description` is not a no-op when it comes back: the
   * layer's `propertychange` reaches the record's `qtip` too.
   */
  lemma DescriptionEditEchoes(s: State, l: LayerId, v: Value)
    requires l in s.records && "description" in s.synced
    requires Get(FieldsOf(s, l), "description") != v && Get(FieldsOf(s, l), "qtip") != v
    ensures var r := SetRecordField(s, l, "description", v);
            var echo := OnChangeLayer(r, l, "description", None);
            && Get(PropsOf(r, l), "description") == v
            && Get(FieldsOf(r, l), "qtip") != v
            && Get(FieldsOf(echo, l), "qtip") == v
  {
    var r := SetRecordField(s, l, "description", v);
    assert "description" in ["description"];
    assert RecordFor(r, l, None) == Some(l);
  }

  /**
   * With a filter that picks another layer's record `m`, a layer change is
   * copied to `m`, and the store's `update` then copies it on to layer `m`.
   */
  lemma FilteredChangeEchoesElsewhere(s: State, l: LayerId, m: LayerId, key: Key, f: (LayerId, LayerId) -> bool)
    requires RecordFor(s, l, Some(f)) == Some(m) && m != l
    requires key in s.synced && key != "description"
    requires Get(PropsOf(s, m), key) != Get(PropsOf(s, l), key)
    ensures var r := OnChangeLayer(s, l, key, Some(f));
            var echo := OnStoreUpdate(r, m, Edit, Some([key]));
            && Get(FieldsOf(r, m), key) == Get(PropsOf(s, l), key)
            && Get(PropsOf(echo, m), key) == Get(PropsOf(s, l), key)
            && echo != r
  {
    assert key in [key];
  }

  // ---------------------------------------------------------------------
  // The positional invariant.

  lemma InsertLayerKeepsMirror(s: State, i: nat, l: LayerId, reader: Reader)
    requires Mirrored(s) && l !in s.layers && i <= |s.layers| && ReadsOwnLayer(reader, l)
    ensures Mirrored(CollInsertAt(s, i, l, reader))
  {
    InsertLayerNoEcho(s, i, l, reader);
    OwnLayerRead(reader, l);
    DistinctInsert(s.layers, i, l);
  }

  lemma RemoveLayerKeepsMirror(s: State, l: LayerId)
    requires Mirrored(s)
    ensures Mirrored(RemoveMapLayer(s, l))
    ensures RemoveMapLayer(s, l).layers == Without(s.layers, {l})
  {
    DistinctRemoveFirst(s.layers, l);
    RemoveFirstDistinct(s.layers, l);
  }

  lemma StoreInsertKeepsMirror(s: State, index: nat, rec: Rec, reader: Reader)
    requires Mirrored(s) && rec.layer !in s.records && (index > 0 || s.records == [])
    ensures Mirrored(StoreInsert(s, index, [rec], reader))
  {
    var at := if index <= |s.records| then index else |s.records|;
    StoreInsertOne(s, index, at, rec, reader);
    InsertedKeepsMirror(s, StoreInsert(s, index, [rec], reader), at, rec.layer);
  }

  /** One record inserted into a mirrored store goes to the same place on both sides. */
  lemma StoreInsertOne(s: State, index: nat, at: nat, rec: Rec, reader: Reader)
    requires s.records == s.layers && !s.adding && (index > 0 || s.records == [])
    requires at == if index <= |s.records| then index else |s.records|
    ensures StoreInsert(s, index, [rec], reader)
            == s.(records := Insert(s.records, at, [rec.layer]), layers := Insert(s.layers, at, [rec.layer]),
                  fields := StoreInsert(s, index, [rec], reader).fields, subscribed := s.subscribed + {rec.layer})
  {
    var l := rec.layer;
    assert LayersOf([rec]) == [l];
    assert Elems([l]) == {l};
    InsertOneClamped(s.records, index, at, l);
  }

  lemma InsertOneClamped(xs: seq<LayerId>, index: nat, at: nat, l: LayerId)
    requires at == (if index <= |xs| then index else |xs|) && (index > 0 || xs == [])
    ensures Insert(xs, index, [l]) == Insert(xs, at, [l])
    ensures Added(xs, [l], at) == Insert(xs, at, [l])
  {
    if at == 0 {
      assert xs + [l] == Insert(xs, at, [l]);
    } else {
      assert InsertEach(xs, at, [l]) == InsertEach(Insert(xs, at, [l]), at, []);
    }
  }

  lemma InsertedKeepsMirror(s: State, r: State, at: nat, l: LayerId)
    requires Mirrored(s) && l !in s.layers && at <= |s.layers|
    requires r == s.(records := Insert(s.records, at, [l]), layers := Insert(s.layers, at, [l]),
                     fields := r.fields, subscribed := s.subscribed + {l})
    ensures Mirrored(r)
  {
    DistinctInsert(s.layers, at, l);
  }

  lemma StoreRemoveKeepsMirror(s: State, l: LayerId)
    requires Mirrored(s)
    ensures Mirrored(StoreRemove(s, l))
  {
    DistinctRemoveFirst(s.layers, l);
  }

  lemma StoreClearKeepsMirror(s: State)
    requires Mirrored(s)
    ensures Mirrored(StoreClear(s))
  {
  }

  /**
   * A successful load replaces both sides with the loaded records' layers,
   * or extends both with them when it is an append; a failed load changes
   * nothing.
   */
  lemma LoadKeepsMirror(s: State, d: LayerId, append: bool, reader: Reader)
    requires Mirrored(s)
    requires reader(d).success ==> Distinct((if append then s.layers else []) + LayersOf(reader(d).records))
    ensures Mirrored(LoadRawData(s, d, append, reader))
    ensures reader(d).success ==>
              LoadRawData(s, d, append, reader).layers == (if append then s.layers else []) + LayersOf(reader(d).records)
  {
  }

  /**
   * A record added at index 0 of a non-empty store is appended to the
   * collection: the two sides no longer correspond position by position.
   */
  lemma HeadInsertAppendsLayer(s: State, rec: Rec, reader: Reader)
    requires Mirrored(s) && |s.records| > 0 && rec.layer !in s.records
    ensures var r := StoreInsert(s, 0, [rec], reader);
            && r.records == [rec.layer] + s.records
            && r.layers == s.layers + [rec.layer]
            && r.records != r.layers
  {
    var r := StoreInsert(s, 0, [rec], reader);
    assert LayersOf([rec]) == [rec.layer];
    assert r.records[0] == rec.layer && r.layers[0] == s.layers[0];
  }

  /**
   * Several records added at one inner index land in the collection at
   * that index in reverse order, each being inserted at the same position.
   */
  lemma InnerInsertReverses(s: State, index: nat, recs: seq<Rec>, reader: Reader)
    requires Mirrored(s) && 0 < index <= |s.records|
    ensures var r := StoreInsert(s, index, recs, reader);
            && r.records == s.records[..index] + LayersOf(recs) + s.records[index..]
            && r.layers == s.layers[..index] + Reverse(LayersOf(recs)) + s.layers[index..]
  {
    InsertEachReverses(s.layers, index, LayersOf(recs));
  }

  // ---------------------------------------------------------------------
  // Worked examples.

  /** A store with nothing loaded, nothing bound and no guard raised. */
  function Fresh(props: map<LayerId, Bag>, synced: seq<Key>): State
  {
    State([], [], map[], props, {}, false, false, false, false, 0, [], synced)
  }

  /**
   * Binding a fresh store to a collection of distinct layers gives one
   * record per layer in the same order, each layer subscribed and each
   * record in sync with its layer, and the two sides mirrored.
   */
  lemma BindMirrors(props: map<LayerId, Bag>, synced: seq<Key>, held: Option<LayerSource>, given: LayerSource,
                    reader: Reader)
    requires Distinct(Flatten(Adopt(held, given)))
    requires forall l :: l in Flatten(Adopt(held, given)) ==> ReadsOwnLayer(reader, l)
    ensures var coll := Flatten(Adopt(held, given));
            var r := BindLayers(Fresh(props, synced), held, given, reader);
            && r.Finished? && r.state.bound && Mirrored(r.state) && r.state.records == coll
            && forall x :: x in coll ==> x in r.state.subscribed && InSync(r.state, x)
  {
    var coll := Flatten(Adopt(held, given));
    ReadAllOwn(reader, coll);
    assert [] + ReadAll(reader, coll) == coll;
    BoundAll(Fresh(props, synced), coll, BindLayers(Fresh(props, synced), held, given, reader));
  }

  /**
   * A binding in which every layer found its record completes, with both sides mirrored.
   * `r` is the outcome of `BindLayers`; its requires restate that function's ensures
   * instead of calling it, so the solver never unfolds the binding inside this proof.
   */
  lemma BoundAll(s: State, coll: seq<LayerId>, r: Outcome)
    requires !s.adding && !s.removing && Distinct(coll)
    requires r.Threw? <==> Unrecorded(coll, coll).Some?
    requires r.state == s.(layers := coll, records := coll, fields := r.state.fields, total := r.state.total,
                           subscribed := s.subscribed + Elems(coll[..Reached(coll, coll)]),
                           addRecords := false, bound := r.Finished?,
                           signals := if r.Finished? then s.signals + [Bound] else s.signals)
    ensures r.Finished? && r.state.bound && Mirrored(r.state)
    ensures forall x :: x in coll ==> x in r.state.subscribed
  {
    assert coll[..|coll|] == coll;
  }

  /**
   * Binding layers [1, 2] when no record can be read for layer 1 throws at
   * layer 1: layer 1 is subscribed, layer 2 is not, and the store is left
   * unbound with no `bind` fired.
   */
  lemma BindStopsAtUnreadLayer(props: map<LayerId, Bag>, synced: seq<Key>, reader: Reader)
    requires !reader(1).success && ReadsOwnLayer(reader, 2)
    ensures var r := BindLayers(Fresh(props, synced), None, Collection([1, 2]), reader);
            && r.Threw?
            && r.state.records == [2] && r.state.layers == [1, 2]
            && 1 in r.state.subscribed && 2 !in r.state.subscribed
            && !r.state.bound && r.state.signals == []
  {
    var s := Fresh(props, synced);
    var r := BindLayers(s, None, Collection([1, 2]), reader);
    assert Flatten(Adopt(None, Collection([1, 2]))) == [1, 2];
    OnlySecondRead(reader);
    BindThrew(s, [1, 2], [2], r);
  }

  /**
   * A binding in which some layer found no record throws, and leaves the store unbound and silent.
   * As in `BoundAll`, `r` stands for a `BindLayers` outcome through that function's ensures.
   */
  lemma BindThrew(s: State, coll: seq<LayerId>, records: seq<LayerId>, r: Outcome)
    requires Unrecorded(records, coll).Some?
    requires r.Threw? <==> Unrecorded(records, coll).Some?
    requires r.state == s.(layers := coll, records := records, fields := r.state.fields, total := r.state.total,
                           subscribed := s.subscribed + Elems(coll[..Reached(records, coll)]),
                           addRecords := false, bound := r.Finished?,
                           signals := if r.Finished? then s.signals + [Bound] else s.signals)
    ensures r.Threw? && r.state.records == records && r.state.layers == coll
    ensures r.state.subscribed == s.subscribed + Elems(coll[..Reached(records, coll)])
    ensures !r.state.bound && r.state.signals == s.signals
  {
  }

  lemma OnlySecondRead(reader: Reader)
    requires !reader(1).success && ReadsOwnLayer(reader, 2)
    ensures var coll: seq<LayerId> := [1, 2];
            && [] + ReadAll(reader, coll) == [2]
            && Unrecorded([2], coll) == Some(0)
            && Elems(coll[..Reached([2], coll)]) == {1}
  {
    var coll: seq<LayerId> := [1, 2];
    assert ReadAll(reader, coll) == [2] by {
      OwnLayerRead(reader, 2);
      assert coll[1..] == [2] && coll[1..][1..] == [];
    }
    assert Unrecorded([2], coll) == Some(0);
    assert coll[..1] == [1];
  }

  /**
   * Layers 1 and 2 are bound; pushing layer 3 gives records [1, 2, 3], and
   * removing record 2 from the store then leaves layers [1, 3].
   */
  lemma PushThenRemoveRecord(s: State, reader: Reader)
    requires Mirrored(s) && s.layers == [1, 2] && ReadsOwnLayer(reader, 3)
    ensures var pushed := CollInsertAt(s, 2, 3, reader);
            var removed := StoreRemove(pushed, 2);
            && pushed.records == [1, 2, 3] && pushed.layers == [1, 2, 3]
            && removed.records == [1, 3] && removed.layers == [1, 3]
  {
    var pushed := CollInsertAt(s, 2, 3, reader);
    assert pushed.records == [1, 2, 3] && pushed.layers == [1, 2, 3] && !pushed.removing by {
      InsertLayerNoEcho(s, 2, 3, reader);
      OwnLayerRead(reader, 3);
    }
    RemoveMiddleRecord(pushed);
  }

  lemma RemoveMiddleRecord(t: State)
    requires t.records == [1, 2, 3] && t.layers == [1, 2, 3] && !t.removing
    ensures StoreRemove(t, 2).records == [1, 3] && StoreRemove(t, 2).layers == [1, 3]
  {
    var xs: seq<LayerId> := [1, 2, 3];
    RemoveFirstAt(xs, 1);
    assert xs[..1] + xs[2..] == [1, 3];
  }

  /** A subscribed layer turning invisible makes its record invisible, firing no generic update. */
  lemma VisibilityMirrored(s: State, l: LayerId)
    requires l in s.subscribed && l in s.records && "visible" in s.synced
    requires Get(PropsOf(s, l), "visible") == Flag(true)
    ensures var r := SetLayerProperty(s, l, "visible", Flag(false), None);
            && Get(FieldsOf(r, l), "visible") == Flag(false)
            && r.signals == s.signals && r.records == s.records && r.layers == s.layers
  {
  }

  /** A new description reaches the record's `qtip`, and its `description` too when that is listed. */
  lemma DescriptionMirrored(s: State, l: LayerId, v: Value)
    requires l in s.subscribed && l in s.records && Get(PropsOf(s, l), "description") != v
    ensures var r := SetLayerProperty(s, l, "description", v, None);
            && Get(FieldsOf(r, l), "qtip") == v
            && ("description" in s.synced ==> Get(FieldsOf(r, l), "description") == v)
            && r.signals == s.signals
  {
  }

  /** A changed property the records do not list changes no record field and fires a generic update. */
  lemma UnlistedChangeSignals(s: State, l: LayerId, key: Key, v: Value)
    requires l in s.subscribed && l in s.records && key !in s.synced && key != "description"
    requires Get(PropsOf(s, l), key) != v
    ensures var r := SetLayerProperty(s, l, key, v, None);
            && r.fields == s.fields
            && r.signals == s.signals + [Updated(l)]
  {
  }

  // ---------------------------------------------------------------------
  // The flag of the initial load.

  /**
   * As written, binding to layer 1 leaves `addRecords` raised, so the next
   * load that is not an append (of layer 2) replaces the store's records
   * but keeps layer 1 in the collection.
   */
  lemma BindLeavesAddRecords(props: map<LayerId, Bag>, synced: seq<Key>, reader: Reader)
    requires ReadsOwnLayer(reader, 1) && ReadsOwnLayer(reader, 2)
    ensures var bound := BindLayersAsWritten(Fresh(props, synced), None, Collection([1]), reader);
            var loaded := LoadRawData(bound.state, 2, false, reader);
            && bound.Finished? && bound.state.addRecords
            && loaded.records == [2]
            && loaded.layers == [1, 2]
  {
    var s := Fresh(props, synced);
    var bound := BindLayersAsWritten(s, None, Collection([1]), reader);
    assert Flatten(Adopt(None, Collection([1]))) == [1];
    ReadAllOwn(reader, [1]);
    assert [] + ReadAll(reader, [1]) == [1];
    assert AnyRead(reader, [1]) by {
      assert 1 in [1] && reader(1).success;
    }
    BindCompleted(s, [1], [1], true, bound);
    LoadKeepingLayers(bound.state, reader);
  }

  /**
   * A binding as written in which every layer found its record completes, with the flag as the reads left it.
   * As in `BoundAll`, `r` stands for a `BindLayersAsWritten` outcome through that function's ensures.
   */
  lemma BindCompleted(s: State, coll: seq<LayerId>, records: seq<LayerId>, raised: bool, r: Outcome)
    requires forall x :: x in coll ==> x in records
    requires r.Threw? <==> Unrecorded(records, coll).Some?
    requires r.state == s.(layers := coll, records := records, fields := r.state.fields, total := r.state.total,
                           subscribed := s.subscribed + Elems(coll[..Reached(records, coll)]),
                           addRecords := raised, bound := r.Finished?,
                           signals := if r.Finished? then s.signals + [Bound] else s.signals)
    ensures r.Finished? && r.state.bound && r.state.layers == coll && r.state.records == records
    ensures r.state.addRecords == raised
  {
  }

  lemma LoadKeepingLayers(t: State, reader: Reader)
    requires t.bound && t.addRecords && t.layers == [1] && ReadsOwnLayer(reader, 2)
    ensures LoadRawData(t, 2, false, reader).records == [2]
    ensures LoadRawData(t, 2, false, reader).layers == [1, 2]
  {
    OwnLayerRead(reader, 2);
  }

  /**
   * With the flag dropped after the initial load, a load that is not an
   * append replaces both sides with the loaded records' layers.
   */
  lemma BindThenLoadReplaces(props: map<LayerId, Bag>, synced: seq<Key>, held: Option<LayerSource>,
                             given: LayerSource, d: LayerId, reader: Reader)
    requires Distinct(Flatten(Adopt(held, given)))
    requires forall l :: l in Flatten(Adopt(held, given)) ==> ReadsOwnLayer(reader, l)
    requires reader(d).success && Distinct(LayersOf(reader(d).records))
    ensures var loaded := LoadRawData(BindLayers(Fresh(props, synced), held, given, reader).state, d, false, reader);
            && Mirrored(loaded)
            && loaded.layers == LayersOf(reader(d).records)
  {
    var bound := BindLayers(Fresh(props, synced), held, given, reader).state;
    assert Mirrored(bound) by {
      BindMirrors(props, synced, held, given, reader);
    }
    assert [] + LayersOf(reader(d).records) == LayersOf(reader(d).records);
    LoadKeepsMirror(bound, d, false, reader);
  }

  // ---------------------------------------------------------------------
  // Listeners left behind.

  /**
   * As written, a replace whose old record's layer has no record left takes
   * the layer out of the collection but stays subscribed to it, so a later
   * change of that layer still reaches onChangeLayer and, with a filter
   * picking record `m`, rewrites `m`.
   */
  lemma ReplaceKeepsListener(s: State, l: LayerId, m: LayerId, key: Key, v: Value, f: (LayerId, LayerId) -> bool)
    requires l in s.layers && l !in s.records && l in s.subscribed && Distinct(s.layers)
    requires RecordFor(s, l, Some(f)) == Some(m) && key in s.synced && key != "description"
    requires Get(PropsOf(s, l), key) != v
    ensures var r := OnReplace(s, l);
            && l !in r.layers && l in r.subscribed && r.records == s.records
            && Get(FieldsOf(SetLayerProperty(r, l, key, v, Some(f)), m), key) == v
  {
    RemoveFirstDistinct(s.layers, l);
    WithoutMembers(s.layers, {l}, l);
  }

  /** Corrected, the replaced record's layer leaves the collection and is no longer listened to. */
  lemma ReplaceDropsListener(s: State, l: LayerId, key: Key, v: Value, filterFn: Option<(LayerId, LayerId) -> bool>)
    requires l in s.layers && Distinct(s.layers)
    ensures var r := OnReplaceUnsubscribing(s, l);
            && l !in r.layers && l !in r.subscribed
            && SetLayerProperty(r, l, key, v, filterFn).fields == r.fields
            && SetLayerProperty(r, l, key, v, filterFn).signals == r.signals
  {
    RemoveFirstDistinct(s.layers, l);
    WithoutMembers(s.layers, {l}, l);
  }

  /**
   * As written, a load that is not an append throws with `removing` still
   * raised and every layer unsubscribed; the store then ignores the
   * collection: removing a layer takes it out of the collection only.
   */
  lemma LoadThrowLeavesRemovingRaised(s: State, recs: seq<LayerId>, reader: Reader, l: LayerId)
    requires !s.addRecords && l in s.layers && l in s.records
    ensures var t := OnLoadAsWritten(s, recs, true, reader);
            && t.Threw? && t.state.removing
            && l !in t.state.subscribed
            && RemoveMapLayer(t.state, l).records == s.records
            && RemoveMapLayer(t.state, l).layers == RemoveFirst(s.layers, l)
  {
  }
}

=== FILE: props.dfy ===
/**
 * Property bags and the value-copying helper shared by both sides of the
 * synchronizer: a layer's `get`/`set` properties and a record's fields are
 * both modelled as a map from property name to value.
 */
module Props {

  type Key = string

  /** A property value; `Undefined` is what `get` answers for an unset key. */
  datatype Value = Undefined | Flag(b: bool) | Number(n: int) | Text(t: string)

  type Bag = map<Key, Value>

  function Get(bag: Bag, k: Key): Value
  {
    if k in bag then bag[k] else Undefined
  }

  /** The destination bag after a copy, and whether `set` was called on it. */
  datatype Written = Written(bag: Bag, wrote: bool)

  /**
   * `synchronize(destination, source, prop)`: copy the source's value to the
   * destination, calling `set` only when the two differ.
   */
  function Synchronize(dst: Bag, src: Bag, p: Key): (r: Written)
    ensures Get(r.bag, p) == Get(src, p)
    ensures r.wrote <==> Get(dst, p) != Get(src, p)
    ensures !r.wrote ==> r.bag == dst
    ensures forall k :: k != p ==> Get(r.bag, k) == Get(dst, k)
  {
    var value := Get(src, p);
    if value != Get(dst, p) then Written(dst[p := value], true) else Written(dst, false)
  }

  /** A second `synchronize` with the same source and key never calls `set`. */
  lemma SynchronizeIdempotent(dst: Bag, src: Bag, p: Key)
    ensures var once := Synchronize(dst, src, p);
            Synchronize(once.bag, src, p) == Written(once.bag, false)
  {
  }

  /**
   * `synchronize` applied, in order, to every name of `names` that is also
   * in `listed`: the loop of `bindLayer` (names = listed) and the loop of
   * `onStoreUpdate` (names = the modified field names).
   */
  function SyncListed(dst: Bag, src: Bag, names: seq<Key>, listed: seq<Key>): (r: Bag)
    ensures forall k :: k in names && k in listed ==> Get(r, k) == Get(src, k)
    ensures forall k :: !(k in names && k in listed) ==> Get(r, k) == Get(dst, k)
    ensures (forall k :: k in names && k in listed ==> Get(dst, k) == Get(src, k)) ==> r == dst
    decreases |names|
  {
    if |names| == 0 then dst
    else
      var first := if names[0] in listed then Synchronize(dst, src, names[0]).bag else dst;
      SyncListed(first, src, names[1..], listed)
  }
}

=== FILE: seqs.dfy ===
/**
 * The sequence operations the two collections offer: the store's `findBy`
 * and `insert`, the layer collection's `indexOf`, `insertAt` and `remove`.
 */
module Seqs {
  import opened Wrappers

  /** The members of a sequence, as a set. */
  function Elems<T(==)>(xs: seq<T>): set<T>
  {
    set x | x in xs
  }

  predicate Distinct<T(==)>(xs: seq<T>)
  {
    forall i, j :: 0 <= i < j < |xs| ==> xs[i] != xs[j]
  }

  /** `findBy`: the position of the first element satisfying `p`, if any. */
  function FindBy<T>(xs: seq<T>, p: T -> bool): (r: Option<nat>)
    ensures r.Some? ==> r.value < |xs| && p(xs[r.value])
    ensures r.Some? ==> forall j :: 0 <= j < r.value ==> !p(xs[j])
    ensures r.None? <==> forall j :: 0 <= j < |xs| ==> !p(xs[j])
  {
    if |xs| == 0 then None
    else if p(xs[0]) then Some(0)
    else
      match FindBy(xs[1..], p)
      case None => None
      case Some(k) => Some(k + 1)
  }

  /** `indexOf`: the position of the first occurrence of `x`, if any. */
  function IndexOf<T(==)>(xs: seq<T>, x: T): (r: Option<nat>)
    ensures r.Some? <==> x in xs
    ensures r.Some? ==> r.value < |xs| && xs[r.value] == x && x !in xs[..r.value]
  {
    FindBy(xs, y => y == x)
  }

  /**
   * `splice(i, 0, ...ys)`: insert `ys` before position `i`; an index past
   * the end appends.
   */
  function Insert<T(!new)>(xs: seq<T>, i: nat, ys: seq<T>): (r: seq<T>)
    ensures |r| == |xs| + |ys|
    ensures i <= |xs| ==> r[..i] == xs[..i] && r[i..i + |ys|] == ys && r[i + |ys|..] == xs[i..]
    ensures i >= |xs| ==> r == xs + ys
    ensures forall y :: y in r <==> y in xs || y in ys
  {
    var j := if i <= |xs| then i else |xs|;
    assert xs == xs[..j] + xs[j..];
    xs[..j] + ys + xs[j..]
  }

  /** `remove(x)`: delete the first occurrence of `x`; nothing when absent. */
  function RemoveFirst<T(==)>(xs: seq<T>, x: T): (r: seq<T>)
    ensures x !in xs ==> r == xs
    ensures x in xs ==> |r| == |xs| - 1
    ensures multiset(r) == multiset(xs) - multiset{x}
  {
    match IndexOf(xs, x)
    case None => xs
    case Some(i) =>
      assert xs == xs[..i] + [x] + xs[i + 1..];
      xs[..i] + xs[i + 1..]
  }

  /** `remove` applied for each element of `ys`, in order. */
  function RemoveEach<T(==)>(xs: seq<T>, ys: seq<T>): (r: seq<T>)
    ensures multiset(r) == multiset(xs) - multiset(ys)
    decreases |ys|
  {
    if |ys| == 0 then xs
    else
      assert ys == [ys[0]] + ys[1..];
      RemoveEach(RemoveFirst(xs, ys[0]), ys[1..])
  }

  lemma ElemsCons<T>(xs: seq<T>)
    requires |xs| > 0
    ensures Elems(xs) == {xs[0]} + Elems(xs[1..])
  {
    assert xs == [xs[0]] + xs[1..];
  }

  lemma TailConcat<T>(xs: seq<T>, ys: seq<T>)
    requires |xs| > 0
    ensures (xs + ys)[0] == xs[0] && (xs + ys)[1..] == xs[1..] + ys
  {
  }

  lemma RemoveEachOne<T>(xs: seq<T>, y: T)
    ensures RemoveEach(xs, [y]) == RemoveFirst(xs, y)
    ensures Elems([y]) == {y}
  {
    assert [y][1..] == [];
  }

  /** The elements of `xs` that are not in `s`, in their order. */
  function Without<T(==)>(xs: seq<T>, s: set<T>): (r: seq<T>)
  {
    if |xs| == 0 then []
    else (if xs[0] in s then [] else [xs[0]]) + Without(xs[1..], s)
  }

  /** `insertAt(i, x)` applied for each element of `ys`, always at `i`. */
  function InsertEach<T(!new)>(xs: seq<T>, i: nat, ys: seq<T>): seq<T>
    decreases |ys|
  {
    if |ys| == 0 then xs else InsertEach(Insert(xs, i, [ys[0]]), i, ys[1..])
  }

  function Reverse<T>(xs: seq<T>): (r: seq<T>)
  {
    if |xs| == 0 then [] else Reverse(xs[1..]) + [xs[0]]
  }

  /** Inserting each element at one in-range position reverses them there. */
  lemma {:induction false} InsertEachReverses<T(!new)>(xs: seq<T>, i: nat, ys: seq<T>)
    requires i <= |xs|
    ensures InsertEach(xs, i, ys) == xs[..i] + Reverse(ys) + xs[i..]
    decreases |ys|
  {
    if |ys| > 0 {
      var next := Insert(xs, i, [ys[0]]);
      InsertEachReverses(next, i, ys[1..]);
      assert next[..i] == xs[..i];
      assert next[i..] == [ys[0]] + xs[i..];
    }
  }

  lemma {:induction false} WithoutMembers<T>(xs: seq<T>, s: set<T>, x: T)
    ensures x in Without(xs, s) <==> x in xs && x !in s
    decreases |xs|
  {
    if |xs| > 0 {
      WithoutMembers(xs[1..], s, x);
      assert xs == [xs[0]] + xs[1..];
    }
  }

  lemma {:induction false} WithoutConcat<T>(a: seq<T>, b: seq<T>, s: set<T>)
    ensures Without(a + b, s) == Without(a, s) + Without(b, s)
    decreases |a|
  {
    if |a| > 0 {
      WithoutConcat(a[1..], b, s);
      assert (a + b)[1..] == a[1..] + b;
    } else {
      assert a + b == b;
    }
  }

  lemma {:induction false} WithoutNothing<T>(xs: seq<T>, s: set<T>)
    requires forall x :: x in xs ==> x !in s
    ensures Without(xs, s) == xs
    decreases |xs|
  {
    if |xs| > 0 {
      WithoutNothing(xs[1..], s);
      assert xs == [xs[0]] + xs[1..];
    }
  }

  lemma {:induction false} WithoutTwice<T>(xs: seq<T>, a: set<T>, b: set<T>)
    ensures Without(Without(xs, a), b) == Without(xs, a + b)
    decreases |xs|
  {
    if |xs| > 0 {
      var head := if xs[0] in a then [] else [xs[0]];
      WithoutConcat(head, Without(xs[1..], a), b);
      WithoutTwice(xs[1..], a, b);
    }
  }

  lemma DistinctTail<T>(xs: seq<T>)
    requires |xs| > 0 && Distinct(xs)
    ensures Distinct(xs[1..]) && xs[0] !in xs[1..]
  {
  }

  lemma {:induction false} WithoutDistinct<T>(xs: seq<T>, s: set<T>)
    requires Distinct(xs)
    ensures Distinct(Without(xs, s))
    decreases |xs|
  {
    if |xs| > 0 {
      DistinctTail(xs);
      WithoutDistinct(xs[1..], s);
      WithoutMembers(xs[1..], s, xs[0]);
      var rest := Without(xs[1..], s);
      if xs[0] !in s {
        assert Without(xs, s) == [xs[0]] + rest;
        forall i, j | 0 <= i < j < |[xs[0]] + rest|
          ensures ([xs[0]] + rest)[i] != ([xs[0]] + rest)[j]
        {
          if i == 0 {
            assert ([xs[0]] + rest)[j] == rest[j - 1];
          }
        }
      } else {
        assert Without(xs, s) == rest;
      }
    }
  }

  lemma WithoutSplit<T>(before: seq<T>, y: T, after: seq<T>)
    requires y !in before && y !in after
    ensures Without(before + ([y] + after), {y}) == before + after
  {
    var tail := [y] + after;
    WithoutConcat(before, tail, {y});
    WithoutNothing(before, {y});
    assert Without(tail, {y}) == after by {
      WithoutConcat([y], after, {y});
      assert Without([y], {y}) == [];
      WithoutNothing(after, {y});
    }
  }

  /** In a sequence without repeats, removing the first occurrence removes the only one. */
  lemma RemoveFirstDistinct<T>(xs: seq<T>, y: T)
    requires Distinct(xs)
    ensures RemoveFirst(xs, y) == Without(xs, {y})
  {
    match IndexOf(xs, y)
    case None =>
      WithoutNothing(xs, {y});
    case Some(i) =>
      var before, after := xs[..i], xs[i + 1..];
      assert xs == before + ([y] + after);
      assert forall k :: 0 <= k < |after| ==> after[k] == xs[i + 1 + k];
      WithoutSplit(before, y, after);
  }

  /**
   * In a sequence without repeats, removing each of `ys` in turn keeps
   * exactly the elements not in `ys`, in their order.
   */
  lemma {:induction false} RemoveEachDistinct<T>(xs: seq<T>, ys: seq<T>)
    requires Distinct(xs)
    ensures RemoveEach(xs, ys) == Without(xs, Elems(ys))
    decreases |ys|
  {
    if |ys| == 0 {
      assert Elems(ys) == {};
      WithoutNothing(xs, {});
    } else {
      RemoveFirstDistinct(xs, ys[0]);
      WithoutDistinct(xs, {ys[0]});
      RemoveEachDistinct(Without(xs, {ys[0]}), ys[1..]);
      WithoutTwice(xs, {ys[0]}, Elems(ys[1..]));
      ElemsCons(ys);
    }
  }

  lemma {:induction false} InsertEachMembers<T(!new)>(xs: seq<T>, i: nat, ys: seq<T>)
    ensures forall y :: y in InsertEach(xs, i, ys) <==> y in xs || y in ys
    decreases |ys|
  {
    if |ys| > 0 {
      InsertEachMembers(Insert(xs, i, [ys[0]]), i, ys[1..]);
      assert ys == [ys[0]] + ys[1..];
    }
  }

  /** The position of an element placed where none was. */
  lemma IndexOfInserted<T(!new)>(xs: seq<T>, i: nat, x: T)
    requires x !in xs && i <= |xs|
    ensures IndexOf(Insert(xs, i, [x]), x) == Some(i)
  {
    var ys := Insert(xs, i, [x]);
    assert ys[i] == x;
    assert ys[..i] == xs[..i];
  }

  lemma DistinctInsert<T(!new)>(xs: seq<T>, i: nat, x: T)
    requires Distinct(xs) && x !in xs && i <= |xs|
    ensures Distinct(Insert(xs, i, [x]))
  {
    var ys := Insert(xs, i, [x]);
    forall a, b | 0 <= a < b < |ys| ensures ys[a] != ys[b] {
      if a < i && b < i {
        assert ys[a] == xs[a] && ys[b] == xs[b];
      } else if a < i && b == i {
        assert ys[a] == xs[a];
      } else if a < i {
        assert ys[a] == xs[a] && ys[b] == xs[b - 1];
      } else if a == i {
        assert ys[b] == xs[b - 1];
      } else {
        assert ys[a] == xs[a - 1] && ys[b] == xs[b - 1];
      }
    }
  }

  lemma DistinctRemoveFirst<T>(xs: seq<T>, y: T)
    requires Distinct(xs)
    ensures Distinct(RemoveFirst(xs, y))
  {
    RemoveFirstDistinct(xs, y);
    WithoutDistinct(xs, {y});
  }

  /** `remove` takes out the first occurrence, wherever it is. */
  lemma RemoveFirstAt<T>(xs: seq<T>, i: nat)
    requires i < |xs| && xs[i] !in xs[..i]
    ensures RemoveFirst(xs, xs[i]) == xs[..i] + xs[i + 1..]
  {
  }
}

=== FILE: store.dfy ===
/**
 * The layer store: an ordered store of records kept in step with an ordered
 * collection of map layers, in both directions.
 *
 * The store is a value of `State`, and every event handler is a function
 * from the state before the event to the state after it. Event delivery is
 * synchronous, so a handler that mutates the other side calls that side's
 * handler directly, exactly where the event would fire; the `adding` and
 * `removing` guards are what stop the echo from coming back.
 */
module LayerStore {
  import opened Wrappers
  import opened Props
  import opened Seqs

  /** A layer's identity. A record is identified by the layer it wraps (`getOlLayer()`). */
  type LayerId = nat

  /** A record as the reader builds it: the layer it wraps and its initial fields. */
  datatype Rec = Rec(layer: LayerId, fields: Bag)

  /** What the reader answers for raw data: records, a success flag and a total count. */
  datatype ReadResult = ReadResult(records: seq<Rec>, success: bool, total: nat)

  type Reader = LayerId -> ReadResult

  /** The operation an `update` event of the store reports. */
  datatype Operation = Edit | Reject | Commit

  /** The signals the store fires for observers: `bind`, and a generic `update` of one record. */
  datatype Signal = Bound | Updated(record: LayerId)

  /** Where the layers come from: a plain collection, or a layer group whose children are used. */
  datatype LayerSource = Collection(items: seq<LayerId>) | Group(children: seq<LayerId>)

  datatype State = State(
    records: seq<LayerId>,        // the store, each record standing for its layer
    layers: seq<LayerId>,         // the bound layer collection
    fields: map<LayerId, Bag>,    // the record side: fields of the record of each layer
    props: map<LayerId, Bag>,     // the layer side: properties of each layer
    subscribed: set<LayerId>,     // layers whose `propertychange` reaches onChangeLayer
    adding: bool,                 // `_adding`
    removing: bool,               // `_removing`
    addRecords: bool,             // `_addRecords`
    bound: bool,                  // the store and collection listeners are registered
    total: nat,                   // `totalCount`
    signals: seq<Signal>,         // signals fired so far
    synced: seq<Key>)             // the records' `synchronizedProperties`

  /** The outcome of an operation that may throw part-way: the state reached either way. */
  datatype Outcome = Finished(state: State) | Threw(state: State)

  function BagOf(m: map<LayerId, Bag>, x: LayerId): Bag
  {
    if x in m then m[x] else map[]
  }

  function FieldsOf(s: State, rec: LayerId): Bag
  {
    BagOf(s.fields, rec)
  }

  function PropsOf(s: State, layer: LayerId): Bag
  {
    BagOf(s.props, layer)
  }

  /** Every synchronized field of the record of `x` equals that property of layer `x`. */
  predicate InSync(s: State, x: LayerId)
  {
    forall p :: p in s.synced ==> Get(FieldsOf(s, x), p) == Get(PropsOf(s, x), p)
  }

  /**
   * The record fields of `r` are those of `base`, except that the records in
   * `touched` may have had their synchronized fields rewritten.
   */
  ghost predicate FieldsFrom(r: State, base: map<LayerId, Bag>, touched: set<LayerId>)
  {
    && (forall x :: x !in touched ==> FieldsOf(r, x) == BagOf(base, x))
    && (forall x, k :: x in touched && k !in r.synced ==> Get(FieldsOf(r, x), k) == Get(BagOf(base, x), k))
  }

  lemma FieldsFromFrame(a: State, b: State, base: map<LayerId, Bag>, touched: set<LayerId>)
    requires a.fields == b.fields && a.synced == b.synced && FieldsFrom(a, base, touched)
    ensures FieldsFrom(b, base, touched)
  {
  }

  lemma FieldsFromChain(a: State, b: State, base: map<LayerId, Bag>, first: set<LayerId>, second: set<LayerId>)
    requires a.synced == b.synced && FieldsFrom(a, base, first) && FieldsFrom(b, a.fields, second)
    ensures FieldsFrom(b, base, first + second)
  {
  }

  /** Binding the head of `xs` and then the rest, one state after another, binds all of `xs`. */
  lemma BindChain(s: State, first: State, rest: State, xs: seq<LayerId>)
    requires |xs| > 0 && first.synced == s.synced && rest.synced == first.synced
    requires InSync(first, xs[0]) && (forall x :: InSync(s, x) ==> InSync(first, x)) && FieldsFrom(first, s.fields, {xs[0]})
    requires forall x :: x in xs[1..] ==> InSync(rest, x)
    requires (forall x :: InSync(first, x) ==> InSync(rest, x)) && FieldsFrom(rest, first.fields, Elems(xs[1..]))
    ensures forall x :: x in xs ==> InSync(rest, x)
    ensures forall x :: InSync(s, x) ==> InSync(rest, x)
    ensures FieldsFrom(rest, s.fields, Elems(xs))
  {
    FieldsFromChain(first, rest, s.fields, {xs[0]}, Elems(xs[1..]));
    ElemsCons(xs);
    assert xs == [xs[0]] + xs[1..];
  }

  /** States with the same fields, properties and listed keys agree on which records are in sync. */
  lemma SyncFrame(a: State, b: State)
    requires a.fields == b.fields && a.props == b.props && a.synced == b.synced
    ensures forall x :: InSync(a, x) <==> InSync(b, x)
  {
  }

  function LayersOf(recs: seq<Rec>): seq<LayerId>
  {
    seq(|recs|, i requires 0 <= i < |recs| => recs[i].layer)
  }

  /**
   * The fields of freshly read records: each read record's layer gets the
   * fields of the last read record for it, and no other entry changes.
   */
  function AddFields(m: map<LayerId, Bag>, recs: seq<Rec>): (r: map<LayerId, Bag>)
    decreases |recs|
    ensures forall x :: x !in LayersOf(recs) ==> BagOf(r, x) == BagOf(m, x)
    ensures forall i :: 0 <= i < |recs| && LastFor(recs, i) ==> BagOf(r, recs[i].layer) == recs[i].fields
  {
    if |recs| == 0 then m
    else
      var rest := AddFields(m[recs[0].layer := recs[0].fields], recs[1..]);
      AddFieldsStep(recs);
      rest
  }

  /** No later record of `recs` is for the same layer as `recs[i]`. */
  predicate LastFor(recs: seq<Rec>, i: nat)
    requires i < |recs|
  {
    forall j :: i < j < |recs| ==> recs[j].layer != recs[i].layer
  }

  lemma AddFieldsStep(recs: seq<Rec>)
    requires |recs| > 0
    ensures forall x :: x in LayersOf(recs[1..]) ==> x in LayersOf(recs)
    ensures forall x :: x !in LayersOf(recs) ==> x != recs[0].layer
    ensures LastFor(recs, 0) ==> recs[0].layer !in LayersOf(recs[1..])
    ensures forall i :: 0 < i < |recs| ==> (LastFor(recs, i) <==> LastFor(recs[1..], i - 1))
  {
    assert LayersOf(recs) == [recs[0].layer] + LayersOf(recs[1..]);
  }

  /** A record's fields after `synchronize`, written back only when it called `set`. */
  function SetFields(s: State, rec: LayerId, w: Written): State
  {
    if w.wrote then s.(fields := s.fields[rec := w.bag]) else s
  }

  /** The position of a layer the collection holds. */
  function IndexIn(xs: seq<LayerId>, x: LayerId): (i: nat)
    requires x in xs
    ensures i < |xs| && xs[i] == x
  {
    IndexOf(xs, x).value
  }

  /** Where `onAdd` puts added layers: appended for index 0, else each inserted at `index`. */
  function Added(layers: seq<LayerId>, recs: seq<LayerId>, index: nat): seq<LayerId>
  {
    if index == 0 then layers + recs else InsertEach(layers, index, recs)
  }

  lemma AddedStep(layers: seq<LayerId>, subscribed: set<LayerId>, recs: seq<LayerId>, index: nat)
    requires |recs| > 0
    ensures Added(layers, recs, index)
            == Added(Insert(layers, if index == 0 then |layers| else index, [recs[0]]), recs[1..], index)
    ensures subscribed + Elems(recs) == (subscribed + {recs[0]}) + Elems(recs[1..])
  {
    ElemsCons(recs);
    if index == 0 {
      assert recs == [recs[0]] + recs[1..];
      assert layers + recs == (layers + [recs[0]]) + recs[1..];
    }
  }

  /** `getByLayer`: the first record wrapping `layer`, or the first one `filter` accepts. */
  function GetByLayer(records: seq<LayerId>, layer: LayerId, filter: Option<LayerId -> bool>): (r: Option<LayerId>)
    ensures filter.None? ==> (r.Some? <==> layer in records) && (r.Some? ==> r.value == layer)
    ensures filter.Some? ==> (r.None? <==> forall i :: 0 <= i < |records| ==> !filter.value(records[i]))
    ensures filter.Some? && r.Some? ==>
              exists i :: 0 <= i < |records| && records[i] == r.value && filter.value(records[i]) &&
                          forall j :: 0 <= j < i ==> !filter.value(records[j])
  {
    var found := if filter.Some? then FindBy(records, filter.value) else IndexOf(records, layer);
    match found
    case None => None
    case Some(i) => Some(records[i])
  }

  /** The record onChangeLayer works on: `changeLayerFilterFn` bound to the layer, when configured. */
  function RecordFor(s: State, layer: LayerId, filterFn: Option<(LayerId, LayerId) -> bool>): Option<LayerId>
  {
    match filterFn
    case None => GetByLayer(s.records, layer, None)
    case Some(f) => GetByLayer(s.records, layer, Some((rec: LayerId) => f(layer, rec)))
  }

  /**
   * `bindLayer`: subscribe to the layer's property changes, then copy every
   * synchronized property from the layer to the record. Without a record
   * the source throws after subscribing; the model keeps the state reached
   * at that point.
   */
  function BindLayer(s: State, layer: LayerId, rec: Option<LayerId>): (r: State)
    ensures r == s.(subscribed := s.subscribed + {layer}, fields := r.fields)
    ensures forall x :: (rec.None? || x != rec.value) ==> FieldsOf(r, x) == FieldsOf(s, x)
    ensures rec.Some? ==> forall p :: p in s.synced ==> Get(FieldsOf(r, rec.value), p) == Get(PropsOf(s, layer), p)
    ensures rec.Some? ==> forall p :: p !in s.synced ==> Get(FieldsOf(r, rec.value), p) == Get(FieldsOf(s, rec.value), p)
    ensures rec.None? || rec == Some(layer) ==> forall x :: InSync(s, x) ==> InSync(r, x)
    ensures FieldsFrom(r, s.fields, if rec.Some? then {rec.value} else {})
  {
    var s1 := s.(subscribed := s.subscribed + {layer});
    match rec
    case None => s1
    case Some(x) => SyncRecord(s1, x, layer)
  }

  /** Copy every synchronized property of `layer` to the record `x`, leaving its other fields alone. */
  function SyncRecord(s: State, x: LayerId, layer: LayerId): (r: State)
    ensures r == s.(fields := r.fields)
    ensures forall y :: y != x ==> FieldsOf(r, y) == FieldsOf(s, y)
    ensures forall p :: p in s.synced ==> Get(FieldsOf(r, x), p) == Get(PropsOf(s, layer), p)
    ensures forall p :: p !in s.synced ==> Get(FieldsOf(r, x), p) == Get(FieldsOf(s, x), p)
  {
    var f := SyncListed(FieldsOf(s, x), PropsOf(s, layer), s.synced, s.synced);
    if f == FieldsOf(s, x) then s else s.(fields := s.fields[x := f])
  }

  /** `record.set('qtip', description)`, then `description` synchronized when listed. */
  function MirrorDescription(s: State, rec: LayerId, layerProps: Bag): (r: State)
    ensures r == s.(fields := r.fields)
    ensures forall x :: x != rec ==> FieldsOf(r, x) == FieldsOf(s, x)
    ensures Get(FieldsOf(r, rec), "qtip") == Get(layerProps, "description")
    ensures "description" in s.synced ==> Get(FieldsOf(r, rec), "description") == Get(layerProps, "description")
    ensures forall k :: k != "qtip" && (k != "description" || "description" !in s.synced) ==>
              Get(FieldsOf(r, rec), k) == Get(FieldsOf(s, rec), k)
  {
    var withTip := FieldsOf(s, rec)["qtip" := Get(layerProps, "description")];
    var mirrored := if "description" in s.synced then Synchronize(withTip, layerProps, "description").bag else withTip;
    s.(fields := s.fields[rec := mirrored])
  }

  /** `synchronize(record, layer, key)`. */
  function MirrorKey(s: State, rec: LayerId, layerProps: Bag, key: Key): (r: State)
    ensures r == s.(fields := r.fields)
    ensures forall x :: x != rec ==> FieldsOf(r, x) == FieldsOf(s, x)
    ensures Get(FieldsOf(r, rec), key) == Get(layerProps, key)
    ensures forall k :: k != key ==> Get(FieldsOf(r, rec), k) == Get(FieldsOf(s, rec), k)
    ensures Get(FieldsOf(s, rec), key) == Get(layerProps, key) ==> r == s
  {
    SetFields(s, rec, Synchronize(FieldsOf(s, rec), layerProps, key))
  }

  /**
   * `onChangeLayer`: a property of `layer` changed to the value it now has.
   * `description` always goes to the record's `qtip` and, when listed, to
   * `description` too; another listed key is copied; an unlisted key only
   * fires the generic `update`.
   */
  function OnChangeLayer(s: State, layer: LayerId, key: Key, filterFn: Option<(LayerId, LayerId) -> bool>): (r: State)
    ensures RecordFor(s, layer, filterFn).None? ==> r == s
    ensures RecordFor(s, layer, filterFn).Some? && key == "description" ==>
              r == MirrorDescription(s, RecordFor(s, layer, filterFn).value, PropsOf(s, layer))
    ensures RecordFor(s, layer, filterFn).Some? && key != "description" && key in s.synced ==>
              r == MirrorKey(s, RecordFor(s, layer, filterFn).value, PropsOf(s, layer), key)
    ensures RecordFor(s, layer, filterFn).Some? && key != "description" && key !in s.synced ==>
              r == s.(signals := s.signals + [Updated(RecordFor(s, layer, filterFn).value)])
  {
    match RecordFor(s, layer, filterFn)
    case None => s
    case Some(rec) =>
      if key == "description" then MirrorDescription(s, rec, PropsOf(s, layer))
      else if key in s.synced then MirrorKey(s, rec, PropsOf(s, layer), key)
      else s.(signals := s.signals + [Updated(rec)])
  }

  // ---------------------------------------------------------------------
  // Additions. Measure: (adding guard clear?, rank, length).

  /**
   * `onAddLayer`: unless already adding, read the layer into records and
   * insert them at the layer's position, with `adding` raised so that the
   * store's `add` echo does nothing; in every case bind the layer.
   */
  function OnAddLayer(s: State, layer: LayerId, reader: Reader): (r: State)
    requires layer in s.layers
    decreases if s.adding then 0 else 1, 1, 0
    ensures r == s.(records := r.records, fields := r.fields, subscribed := s.subscribed + {layer})
    ensures s.adding ==> r.records == s.records
    ensures !s.adding ==>
              r.records == Insert(s.records, IndexIn(s.layers, layer), LayersOf(reader(layer).records))
    ensures s.adding ==> forall x :: InSync(s, x) ==> InSync(r, x)
    ensures layer in r.records ==> InSync(r, layer)
    ensures s.adding ==> FieldsFrom(r, s.fields, {layer})
    ensures !s.adding ==> FieldsFrom(r, AddFields(s.fields, reader(layer).records), {layer})
  {
    var s1 :=
      if s.adding then s
      else StoreInsert(s.(adding := true), IndexIn(s.layers, layer), reader(layer).records, reader).(adding := false);
    BindLayer(s1, layer, GetByLayer(s1.records, layer, None))
  }

  /** The store's `insert(index, records)`, whose `add` event reaches `onAdd`. */
  function StoreInsert(s: State, index: nat, recs: seq<Rec>, reader: Reader): (r: State)
    decreases if s.adding then 0 else 1, 6, 0
    ensures r.records == Insert(s.records, index, LayersOf(recs))
    ensures s.adding ==> r == s.(records := r.records, fields := AddFields(s.fields, recs))
    ensures !s.adding ==>
              r == s.(records := r.records, fields := r.fields, subscribed := s.subscribed + Elems(LayersOf(recs)),
                      layers := Added(s.layers, LayersOf(recs), if index <= |s.records| then index else |s.records|))
    ensures !s.adding ==> FieldsFrom(r, AddFields(s.fields, recs), Elems(LayersOf(recs)))
    ensures !s.adding ==> forall x :: x in LayersOf(recs) ==> InSync(r, x)
  {
    var s1 := s.(records := Insert(s.records, index, LayersOf(recs)), fields := AddFields(s.fields, recs));
    OnAdd(s1, LayersOf(recs), if index <= |s.records| then index else |s.records|, reader)
  }

  /**
   * `onAdd`: unless already adding, bind each added record's layer and put
   * it into the collection, appended when `index` is 0 and inserted at
   * `index` otherwise, with `adding` raised around the loop.
   */
  function OnAdd(s: State, recs: seq<LayerId>, index: nat, reader: Reader): (r: State)
    decreases if s.adding then 0 else 1, 5, 0
    ensures s.adding ==> r == s
    ensures !s.adding ==>
              r == s.(layers := Added(s.layers, recs, index), subscribed := s.subscribed + Elems(recs), fields := r.fields)
    ensures !s.adding ==> forall x :: x in recs ==> InSync(r, x)
    ensures !s.adding ==> forall x :: InSync(s, x) ==> InSync(r, x)
    ensures !s.adding ==> FieldsFrom(r, s.fields, Elems(recs))
  {
    if s.adding then s
    else
      var looped := AddLoop(s.(adding := true), recs, index, reader);
      SyncFrame(s, s.(adding := true));
      SyncFrame(looped, looped.(adding := false));
      looped.(adding := false)
  }

  /** The loop of `onAdd`, run with `adding` raised. */
  function AddLoop(s: State, recs: seq<LayerId>, index: nat, reader: Reader): (r: State)
    requires s.adding
    decreases if s.adding then 0 else 1, 4, |recs|
    ensures r == s.(layers := Added(s.layers, recs, index), subscribed := s.subscribed + Elems(recs), fields := r.fields)
    ensures forall x :: x in recs ==> InSync(r, x)
    ensures forall x :: InSync(s, x) ==> InSync(r, x)
    ensures FieldsFrom(r, s.fields, Elems(recs))
  {
    if |recs| == 0 then
      assert Elems(recs) == {};
      s
    else
      AddedStep(s.layers, s.subscribed, recs, index);
      var first := AddOne(s, recs[0], index, reader);
      var rest := AddLoop(first, recs[1..], index, reader);
      BindChain(s, first, rest, recs);
      rest
  }

  /** One iteration of the loop of `onAdd`: bind the record's layer, then push or insert it. */
  function AddOne(s: State, layer: LayerId, index: nat, reader: Reader): (r: State)
    requires s.adding
    decreases if s.adding then 0 else 1, 3, 0
    ensures r == s.(layers := Insert(s.layers, if index == 0 then |s.layers| else index, [layer]),
                    subscribed := s.subscribed + {layer}, fields := r.fields)
    ensures InSync(r, layer)
    ensures forall x :: InSync(s, x) ==> InSync(r, x)
    ensures FieldsFrom(r, s.fields, {layer})
  {
    var withBinding := BindLayer(s, layer, Some(layer));
    var inserted := CollInsertAt(withBinding, if index == 0 then |withBinding.layers| else index, layer, reader);
    FieldsFromChain(withBinding, inserted, s.fields, {layer}, {layer});
    assert {layer} + {layer} == {layer};
    inserted
  }

  /** The collection's `insertAt(i, layer)` (and `push`), whose `add` event reaches `onAddLayer`. */
  function CollInsertAt(s: State, i: nat, layer: LayerId, reader: Reader): (r: State)
    decreases if s.adding then 0 else 1, 2, 0
    ensures r.layers == Insert(s.layers, i, [layer])
    ensures r == s.(layers := r.layers, records := r.records, fields := r.fields, subscribed := s.subscribed + {layer})
    ensures s.adding ==> r.records == s.records
    ensures s.adding ==> forall x :: InSync(s, x) ==> InSync(r, x)
    ensures !s.adding ==>
              r.records == Insert(s.records, IndexIn(r.layers, layer), LayersOf(reader(layer).records))
    ensures s.adding ==> FieldsFrom(r, s.fields, {layer})
    ensures !s.adding ==> FieldsFrom(r, AddFields(s.fields, reader(layer).records), {layer})
  {
    OnAddLayer(s.(layers := Insert(s.layers, i, [layer])), layer, reader)
  }

  // ---------------------------------------------------------------------
  // Removals. Measure: (removing guard clear?, rank, length).

  /**
   * `onRemoveLayer`: unless already removing, find the layer's record and,
   * when there is one, unsubscribe the layer and remove the record with
   * `removing` raised so that the store's `remove` echo does nothing.
   */
  function OnRemoveLayer(s: State, layer: LayerId): (r: State)
    decreases if s.removing then 0 else 1, 1, 0
    ensures r == if !s.removing && layer in s.records
                 then s.(records := RemoveFirst(s.records, layer), subscribed := s.subscribed - {layer})
                 else s
  {
    if s.removing then s
    else
      match GetByLayer(s.records, layer, None)
      case None => s
      case Some(rec) =>
        StoreRemove(s.(removing := true, subscribed := s.subscribed - {layer}), rec).(removing := false)
  }

  /** The store's `remove(record)`, whose `remove` event reaches `onRemove`. */
  function StoreRemove(s: State, rec: LayerId): (r: State)
    decreases if s.removing then 0 else 1, 6, 0
    ensures r.records == RemoveFirst(s.records, rec)
    ensures rec !in s.records ==> r == s
    ensures s.removing ==> r == s.(records := r.records)
    ensures !s.removing && rec in s.records ==>
              r == s.(records := r.records, layers := RemoveFirst(s.layers, rec), subscribed := s.subscribed - {rec})
  {
    if rec !in s.records then s
    else
      RemoveEachOne(s.layers, rec);
      OnRemove(s.(records := RemoveFirst(s.records, rec)), [rec])
  }

  /**
   * `onRemove`: unless already removing, unsubscribe each removed record's
   * layer and, when the collection still holds it, remove it with
   * `removing` raised.
   */
  function OnRemove(s: State, recs: seq<LayerId>): (r: State)
    decreases if s.removing then 0 else 1, 5, 0
    ensures s.removing ==> r == s
    ensures !s.removing ==> r == s.(layers := RemoveEach(s.layers, recs), subscribed := s.subscribed - Elems(recs))
  {
    if s.removing then s else RemoveLoop(s, recs)
  }

  /** The loop of `onRemove`, which raises and drops `removing` around each removal. */
  function RemoveLoop(s: State, recs: seq<LayerId>): (r: State)
    requires !s.removing
    decreases if s.removing then 0 else 1, 4, |recs|
    ensures r == s.(layers := RemoveEach(s.layers, recs), subscribed := s.subscribed - Elems(recs))
  {
    if |recs| == 0 then
      assert Elems(recs) == {};
      s
    else
      RemovedStep(s.layers, s.subscribed, recs);
      RemoveLoop(RemoveOne(s, recs[0]), recs[1..])
  }

  lemma RemovedStep(layers: seq<LayerId>, subscribed: set<LayerId>, recs: seq<LayerId>)
    requires |recs| > 0
    ensures RemoveEach(layers, recs) == RemoveEach(RemoveFirst(layers, recs[0]), recs[1..])
    ensures subscribed - Elems(recs) == (subscribed - {recs[0]}) - Elems(recs[1..])
  {
    ElemsCons(recs);
  }

  /** One iteration of the loop of `onRemove`: unsubscribe, then remove the layer if still present. */
  function RemoveOne(s: State, layer: LayerId): (r: State)
    requires !s.removing
    decreases if s.removing then 0 else 1, 3, 0
    ensures r == s.(layers := RemoveFirst(s.layers, layer), subscribed := s.subscribed - {layer})
  {
    var unsubscribed := s.(subscribed := s.subscribed - {layer});
    if layer in unsubscribed.layers then RemoveMapLayer(unsubscribed.(removing := true), layer).(removing := false)
    else unsubscribed
  }

  /** `removeMapLayer`: the collection's `remove` of the record's layer, whose event reaches `onRemoveLayer`. */
  function RemoveMapLayer(s: State, rec: LayerId): (r: State)
    decreases if s.removing then 0 else 1, 2, 0
    ensures r.layers == RemoveFirst(s.layers, rec)
    ensures r == if rec in s.layers && !s.removing && rec in s.records
                 then s.(layers := r.layers, records := RemoveFirst(s.records, rec), subscribed := s.subscribed - {rec})
                 else s.(layers := r.layers)
  {
    if rec in s.layers then OnRemoveLayer(s.(layers := RemoveFirst(s.layers, rec)), rec) else s
  }

  /**
   * `onReplace`: the store's data swapped `oldRec` for another record; its
   * layer leaves the collection, with no guard checked.
   */
  function OnReplace(s: State, oldRec: LayerId): (r: State)
    ensures r.layers == RemoveFirst(s.layers, oldRec)
    ensures oldRec !in s.layers ==> r == s
    ensures oldRec in s.layers && !s.removing && oldRec in s.records ==>
              r == s.(layers := r.layers, records := RemoveFirst(s.records, oldRec), subscribed := s.subscribed - {oldRec})
    ensures oldRec in s.layers && (s.removing || oldRec !in s.records) ==> r == s.(layers := r.layers)
  {
    RemoveMapLayer(s, oldRec)
  }

  /**
   * `onReplace` that also stops listening to the replaced record's layer,
   * as `onRemoveLayer` and `onRemove` do for every layer they take out.
   */
  function OnReplaceUnsubscribing(s: State, oldRec: LayerId): (r: State)
    ensures r.layers == RemoveFirst(s.layers, oldRec)
    ensures oldRec !in r.subscribed
    ensures r == s.(layers := r.layers, subscribed := s.subscribed - {oldRec},
                    records := if oldRec in s.layers && !s.removing then RemoveFirst(s.records, oldRec) else s.records)
  {
    RemoveMapLayer(s.(subscribed := s.subscribed - {oldRec}), oldRec)
  }

  // ---------------------------------------------------------------------
  // Bulk operations.

  /** The collection's `clear`: pop the last layer until empty, each pop firing `remove`. */
  function CollClear(s: State): (r: State)
    requires s.removing
    decreases |s.layers|
    ensures r == s.(layers := [])
  {
    if |s.layers| == 0 then s
    else
      var last := s.layers[|s.layers| - 1];
      CollClear(OnRemoveLayer(s.(layers := s.layers[..|s.layers| - 1]), last))
  }

  /** The collection's `extend`: push each layer in order, each push firing `add`. */
  function CollExtend(s: State, ls: seq<LayerId>, reader: Reader): (r: State)
    requires s.adding
    decreases |ls|
    ensures r == s.(layers := s.layers + ls, subscribed := s.subscribed + Elems(ls), fields := r.fields)
    ensures forall x :: InSync(s, x) ==> InSync(r, x)
    ensures FieldsFrom(r, s.fields, Elems(ls))
  {
    if |ls| == 0 then
      assert Elems(ls) == {};
      s
    else
      var pushed := CollInsertAt(s, |s.layers|, ls[0], reader);
      assert ls == [ls[0]] + ls[1..];
      assert s.layers + ls == pushed.layers + ls[1..];
      ElemsCons(ls);
      var rest := CollExtend(pushed, ls[1..], reader);
      FieldsFromChain(pushed, rest, s.fields, {ls[0]}, Elems(ls[1..]));
      rest
  }

  /** `onClear`: with `removing` raised, unsubscribe every layer and clear the collection. */
  function OnClear(s: State): (r: State)
    ensures r == s.(layers := [], subscribed := s.subscribed - Elems(s.layers), removing := false)
  {
    CollClear(s.(removing := true, subscribed := s.subscribed - Elems(s.layers))).(removing := false)
  }

  /** The store's `removeAll`, whose `clear` event reaches `onClear`. */
  function StoreClear(s: State): (r: State)
    ensures r == s.(records := [], layers := [], subscribed := s.subscribed - Elems(s.layers), removing := false)
  {
    OnClear(s.(records := []))
  }

  /** The loop of `onLoad` binding each loaded record to its own layer. */
  function BindEach(s: State, recs: seq<LayerId>): (r: State)
    decreases |recs|
    ensures r == s.(subscribed := s.subscribed + Elems(recs), fields := r.fields)
    ensures forall x :: x in recs ==> InSync(r, x)
    ensures forall x :: InSync(s, x) ==> InSync(r, x)
    ensures FieldsFrom(r, s.fields, Elems(recs))
  {
    if |recs| == 0 then
      assert Elems(recs) == {};
      s
    else
      ElemsCons(recs);
      var first := BindLayer(s, recs[0], Some(recs[0]));
      var rest := BindEach(first, recs[1..]);
      BindChain(s, first, rest, recs);
      rest
  }

  /**
   * `onLoad`: after a successful load, clear the collection unless the load
   * was an append, then bind and push the loaded records' layers with
   * `adding` raised. `addRecords` is dropped whatever happened.
   */
  function OnLoad(s: State, recs: seq<LayerId>, successful: bool, reader: Reader): (r: State)
    ensures !successful ==> r == s.(addRecords := false)
    ensures successful ==>
              r == s.(layers := (if s.addRecords then s.layers else []) + recs,
                      subscribed := (if s.addRecords then s.subscribed else s.subscribed - Elems(s.layers)) + Elems(recs),
                      fields := r.fields,
                      removing := if s.addRecords then s.removing else false,
                      adding := if |recs| > 0 then false else s.adding,
                      addRecords := false)
    ensures successful ==> forall x :: x in recs ==> InSync(r, x)
    ensures successful ==> FieldsFrom(r, s.fields, Elems(recs))
  {
    var loaded := if !successful then s else ExtendLoaded(if s.addRecords then s else OnClear(s), recs, reader);
    SyncFrame(loaded, loaded.(addRecords := false));
    loaded.(addRecords := false)
  }

  /**
   * `onLoad` as written: for a load that is not an append, line 289 asks
   * the collection for `getLayers()`, which a collection does not have. It
   * throws there, after raising `removing` and unsubscribing every layer,
   * and before the collection is cleared, the loaded layers are added or
   * any flag is dropped.
   */
  function OnLoadAsWritten(s: State, recs: seq<LayerId>, successful: bool, reader: Reader): (r: Outcome)
    ensures r.Threw? <==> successful && !s.addRecords
    ensures r.Threw? ==> r.state == s.(removing := true, subscribed := s.subscribed - Elems(s.layers))
    ensures r.Finished? ==> r.state == OnLoad(s, recs, successful, reader)
  {
    if successful && !s.addRecords then Threw(s.(removing := true, subscribed := s.subscribed - Elems(s.layers)))
    else Finished(OnLoad(s, recs, successful, reader))
  }

  /** The second half of `onLoad`: bind every loaded record's layer, then push them all with `adding` raised. */
  function ExtendLoaded(s: State, recs: seq<LayerId>, reader: Reader): (r: State)
    ensures r == s.(layers := s.layers + recs, subscribed := s.subscribed + Elems(recs), fields := r.fields,
                    adding := if |recs| > 0 then false else s.adding)
    ensures forall x :: x in recs ==> InSync(r, x)
    ensures FieldsFrom(r, s.fields, Elems(recs))
  {
    if |recs| > 0 then
      var withBindings := BindEach(s, recs);
      var extended := CollExtend(withBindings.(adding := true), recs, reader);
      SyncFrame(withBindings, withBindings.(adding := true));
      SyncFrame(extended, extended.(adding := false));
      FieldsFromChain(withBindings, extended, s.fields, Elems(recs), Elems(recs));
      extended.(adding := false)
    else
      assert Elems(recs) == {} && s.layers + recs == s.layers;
      s
  }

  /**
   * `loadRecords`: raise `addRecords` when the options ask for an append,
   * then let the store replace or extend its records.
   */
  function LoadRecords(s: State, recs: seq<Rec>, append: bool): (r: State)
    ensures r.addRecords == (s.addRecords || append)
    ensures r.records == (if append then s.records else []) + LayersOf(recs)
    ensures r == s.(records := r.records, fields := AddFields(s.fields, recs), addRecords := r.addRecords)
  {
    var flagged := if append then s.(addRecords := true) else s;
    flagged.(records := (if append then s.records else []) + LayersOf(recs), fields := AddFields(s.fields, recs))
  }

  /**
   * `loadRawData`: read the data; on success record the total, load the
   * records (appending when asked) and fire `load`, which reaches `onLoad`
   * only once the store is bound.
   */
  function LoadRawData(s: State, data: LayerId, append: bool, reader: Reader): (r: State)
    ensures !reader(data).success ==> r == s
    ensures reader(data).success ==>
              r.records == (if append then s.records else []) + LayersOf(reader(data).records) && r.total == reader(data).total
    ensures reader(data).success && !s.bound ==>
              r == s.(records := r.records, fields := AddFields(s.fields, reader(data).records), total := r.total,
                      addRecords := s.addRecords || append)
    ensures reader(data).success && s.bound ==>
              !r.addRecords && r.layers == (if s.addRecords || append then s.layers else []) + LayersOf(reader(data).records)
    ensures reader(data).success && s.bound ==>
              FieldsFrom(r, AddFields(s.fields, reader(data).records), Elems(LayersOf(reader(data).records)))
  {
    var result := reader(data);
    if !result.success then s
    else
      var loaded := LoadRecords(s.(total := result.total), result.records, append);
      if loaded.bound then OnLoad(loaded, LayersOf(result.records), true, reader) else loaded
  }

  // ---------------------------------------------------------------------
  // Property edits from either side.

  /**
   * `onStoreUpdate`: for an EDIT with a list of modified fields, copy each
   * listed modified field from the record to its layer.
   */
  function OnStoreUpdate(s: State, rec: LayerId, op: Operation, modified: Option<seq<Key>>): (r: State)
    ensures op != Edit || modified.None? ==> r == s
    ensures r == s.(props := r.props)
    ensures forall x :: x != rec ==> PropsOf(r, x) == PropsOf(s, x)
    ensures op == Edit && modified.Some? ==>
              forall k :: k in modified.value && k in s.synced ==> Get(PropsOf(r, rec), k) == Get(FieldsOf(s, rec), k)
    ensures forall k :: !(op == Edit && modified.Some? && k in modified.value && k in s.synced) ==>
              Get(PropsOf(r, rec), k) == Get(PropsOf(s, rec), k)
    ensures modified.Some? &&
            (forall k :: k in modified.value && k in s.synced ==> Get(PropsOf(s, rec), k) == Get(FieldsOf(s, rec), k))
            ==> r == s
  {
    if op == Edit && modified.Some? then
      var updated := SyncListed(PropsOf(s, rec), FieldsOf(s, rec), modified.value, s.synced);
      if updated == PropsOf(s, rec) then s else s.(props := s.props[rec := updated])
    else s
  }

  /**
   * A layer's `set(key, value)`: nothing happens for an unchanged value;
   * otherwise the property changes and, when the store listens to the
   * layer, `propertychange` reaches `onChangeLayer`.
   */
  function SetLayerProperty(s: State, layer: LayerId, key: Key, v: Value,
                            filterFn: Option<(LayerId, LayerId) -> bool>): (r: State)
    ensures Get(PropsOf(s, layer), key) == v ==> r == s
    ensures Get(PropsOf(s, layer), key) != v && layer !in s.subscribed ==>
              r == s.(props := s.props[layer := PropsOf(s, layer)[key := v]])
    ensures Get(PropsOf(s, layer), key) != v && layer in s.subscribed ==>
              r == OnChangeLayer(s.(props := s.props[layer := PropsOf(s, layer)[key := v]]), layer, key, filterFn)
  {
    if Get(PropsOf(s, layer), key) == v then s
    else
      var changed := s.(props := s.props[layer := PropsOf(s, layer)[key := v]]);
      if layer in s.subscribed then OnChangeLayer(changed, layer, key, filterFn) else changed
  }

  /**
   * A record's `set(key, value)` committed as an edit: the store fires
   * `update` with the one modified field, which reaches `onStoreUpdate`.
   */
  function SetRecordField(s: State, rec: LayerId, key: Key, v: Value): (r: State)
    ensures Get(FieldsOf(s, rec), key) == v ==> r == s
    ensures Get(FieldsOf(s, rec), key) != v && rec !in s.records ==>
              r == s.(fields := s.fields[rec := FieldsOf(s, rec)[key := v]])
    ensures Get(FieldsOf(s, rec), key) != v && rec in s.records ==>
              r == OnStoreUpdate(s.(fields := s.fields[rec := FieldsOf(s, rec)[key := v]]), rec, Edit, Some([key]))
  {
    if Get(FieldsOf(s, rec), key) == v then s
    else
      var changed := s.(fields := s.fields[rec := FieldsOf(s, rec)[key := v]]);
      if rec in s.records then OnStoreUpdate(changed, rec, Edit, Some([key])) else changed
  }

  // ---------------------------------------------------------------------
  // Binding.

  /** The collection to bind: one the store already holds wins over the one passed in. */
  function Adopt(held: Option<LayerSource>, given: LayerSource): LayerSource
  {
    if held.Some? then held.value else given
  }

  /** A group is replaced by its own layer collection. */
  function Flatten(src: LayerSource): seq<LayerId>
  {
    match src
    case Collection(items) => items
    case Group(children) => children
  }

  /** The layers of every successful read of `ls`, in order. */
  function ReadAll(reader: Reader, ls: seq<LayerId>): seq<LayerId>
    decreases |ls|
  {
    if |ls| == 0 then []
    else (if reader(ls[0]).success then LayersOf(reader(ls[0]).records) else []) + ReadAll(reader, ls[1..])
  }

  /** The records of every successful read of `ls`, in order: what the reads bring into the store. */
  function ReadRecs(reader: Reader, ls: seq<LayerId>): (r: seq<Rec>)
    decreases |ls|
    ensures LayersOf(r) == ReadAll(reader, ls)
  {
    if |ls| == 0 then []
    else
      var head := if reader(ls[0]).success then reader(ls[0]).records else [];
      var rest := ReadRecs(reader, ls[1..]);
      LayersOfConcat(head, rest);
      head + rest
  }

  lemma LayersOfConcat(a: seq<Rec>, b: seq<Rec>)
    ensures LayersOf(a + b) == LayersOf(a) + LayersOf(b)
  {
  }

  lemma AddFieldsCons(m: map<LayerId, Bag>, a: seq<Rec>)
    requires |a| > 0
    ensures AddFields(m, a) == AddFields(m[a[0].layer := a[0].fields], a[1..])
  {
  }

  /** Adding records in two batches gives each layer the fields it gets from adding them in one. */
  lemma {:induction false} AddFieldsConcat(m: map<LayerId, Bag>, a: seq<Rec>, b: seq<Rec>)
    ensures AddFields(AddFields(m, a), b) == AddFields(m, a + b)
    decreases |a|
  {
    if |a| == 0 {
      assert a + b == b;
    } else {
      var m1 := m[a[0].layer := a[0].fields];
      AddFieldsConcat(m1, a[1..], b);
      TailConcat(a, b);
      AddFieldsCons(m, a);
      AddFieldsCons(m, a + b);
    }
  }

  /**
   * `totalCount` after reading each layer of `ls` in turn, starting from
   * `t`: the total of the last successful read, or `t` when none succeeds.
   */
  function LastTotal(reader: Reader, ls: seq<LayerId>, t: nat): (r: nat)
    decreases |ls|
    ensures (forall i :: 0 <= i < |ls| ==> !reader(ls[i]).success) ==> r == t
    ensures forall i :: 0 <= i < |ls| && reader(ls[i]).success && (forall j :: i < j < |ls| ==> !reader(ls[j]).success) ==>
              r == reader(ls[i]).total
  {
    if |ls| == 0 then t
    else
      var r := LastTotal(reader, ls[1..], if reader(ls[0]).success then reader(ls[0]).total else t);
      LastTotalStep(reader, ls, t, r);
      r
  }

  lemma LastTotalStep(reader: Reader, ls: seq<LayerId>, t: nat, r: nat)
    requires |ls| > 0
    requires var t1 := if reader(ls[0]).success then reader(ls[0]).total else t;
             && ((forall i :: 0 <= i < |ls[1..]| ==> !reader(ls[1..][i]).success) ==> r == t1)
             && (forall i :: (0 <= i < |ls[1..]| && reader(ls[1..][i]).success &&
                              (forall j :: i < j < |ls[1..]| ==> !reader(ls[1..][j]).success)) ==> r == reader(ls[1..][i]).total)
    ensures (forall i :: 0 <= i < |ls| ==> !reader(ls[i]).success) ==> r == t
    ensures forall i :: 0 <= i < |ls| && reader(ls[i]).success && (forall j :: i < j < |ls| ==> !reader(ls[j]).success) ==>
              r == reader(ls[i]).total
  {
    forall i | 0 <= i < |ls| && reader(ls[i]).success && (forall j :: i < j < |ls| ==> !reader(ls[j]).success)
      ensures r == reader(ls[i]).total
    {
      if i > 0 {
        assert ls[1..][i - 1] == ls[i];
        assert forall j :: i - 1 < j < |ls[1..]| ==> ls[1..][j] == ls[j + 1];
      } else {
        assert forall j :: 0 <= j < |ls[1..]| ==> ls[1..][j] == ls[j + 1];
      }
    }
    if forall i :: 0 <= i < |ls| ==> !reader(ls[i]).success {
      assert forall j :: 0 <= j < |ls[1..]| ==> ls[1..][j] == ls[j + 1];
    }
  }

  predicate AnyRead(reader: Reader, ls: seq<LayerId>)
  {
    exists l :: l in ls && reader(l).success
  }

  lemma LoadStep(reader: Reader, records: seq<LayerId>, ls: seq<LayerId>)
    requires |ls| > 0
    ensures var read := if reader(ls[0]).success then LayersOf(reader(ls[0]).records) else [];
            records + ReadAll(reader, ls) == (records + read) + ReadAll(reader, ls[1..])
    ensures AnyRead(reader, ls) <==> reader(ls[0]).success || AnyRead(reader, ls[1..])
  {
    assert ls == [ls[0]] + ls[1..];
  }

  /** The first loop of `bindLayers`: `loadRawData(layer, true)` for each layer, before `load` is listened to. */
  function LoadEach(s: State, ls: seq<LayerId>, reader: Reader): (r: State)
    requires !s.bound
    decreases |ls|
    ensures r == s.(records := s.records + ReadAll(reader, ls), fields := AddFields(s.fields, ReadRecs(reader, ls)),
                    total := LastTotal(reader, ls, s.total), addRecords := s.addRecords || AnyRead(reader, ls))
  {
    if |ls| == 0 then s
    else
      var ok := reader(ls[0]).success;
      var head := if ok then reader(ls[0]).records else [];
      var first := LoadRawData(s, ls[0], true, reader);
      assert first == s.(records := s.records + LayersOf(head), fields := AddFields(s.fields, head),
                         total := if ok then reader(ls[0]).total else s.total, addRecords := s.addRecords || ok);
      LoadStep(reader, s.records, ls);
      AddFieldsConcat(s.fields, head, ReadRecs(reader, ls[1..]));
      LoadEach(first, ls[1..], reader)
  }

  /** The position of the first layer of `ls` that has no record: where the binding loop of `bindLayers` throws. */
  function Unrecorded(records: seq<LayerId>, ls: seq<LayerId>): (r: Option<nat>)
    decreases |ls|
    ensures r.None? <==> forall x :: x in ls ==> x in records
    ensures r.Some? ==> r.value < |ls| && ls[r.value] !in records && forall j :: 0 <= j < r.value ==> ls[j] in records
  {
    if |ls| == 0 then None
    else if ls[0] !in records then Some(0)
    else
      match Unrecorded(records, ls[1..])
      case None => None
      case Some(i) => Some(i + 1)
  }

  /** How many layers the binding loop subscribes: all of them, or those up to and including the one it throws on. */
  function Reached(records: seq<LayerId>, ls: seq<LayerId>): (n: nat)
    ensures n <= |ls|
  {
    match Unrecorded(records, ls)
    case None => |ls|
    case Some(i) => i + 1
  }

  lemma ReachedStep(records: seq<LayerId>, ls: seq<LayerId>)
    requires |ls| > 0 && ls[0] in records
    ensures Unrecorded(records, ls).Some? <==> Unrecorded(records, ls[1..]).Some?
    ensures Elems(ls[..Reached(records, ls)]) == {ls[0]} + Elems(ls[1..][..Reached(records, ls[1..])])
  {
    var n := Reached(records, ls[1..]);
    assert Reached(records, ls) == n + 1;
    var reached := ls[..n + 1];
    assert reached[0] == ls[0] && reached[1..] == ls[1..][..n];
    ElemsCons(reached);
  }

  /** A layer with a record, bound before the rest of the loop: how far the loop gets, from how far its rest gets. */
  lemma BindFoundStep(s: State, first: State, rest: Outcome, ls: seq<LayerId>)
    requires |ls| > 0 && ls[0] in s.records
    requires first == s.(subscribed := s.subscribed + {ls[0]}, fields := first.fields)
    requires rest.Threw? <==> Unrecorded(first.records, ls[1..]).Some?
    requires rest.state == first.(subscribed := first.subscribed + Elems(ls[1..][..Reached(first.records, ls[1..])]),
                                  fields := rest.state.fields)
    ensures rest.Threw? <==> Unrecorded(s.records, ls).Some?
    ensures rest.state == s.(subscribed := s.subscribed + Elems(ls[..Reached(s.records, ls)]), fields := rest.state.fields)
  {
    ReachedStep(s.records, ls);
  }

  /** The loop throwing on its first layer: only that layer is subscribed. */
  lemma BindFoundThrows(s: State, ls: seq<LayerId>)
    requires |ls| > 0 && ls[0] !in s.records
    ensures Unrecorded(s.records, ls).Some?
    ensures Elems(ls[..Reached(s.records, ls)]) == {ls[0]}
  {
    assert ls[..Reached(s.records, ls)] == [ls[0]];
  }

  /** Binding the head of `ls` before a loop over the rest that may throw. */
  lemma SyncChain(s: State, first: State, rest: Outcome, ls: seq<LayerId>, later: set<LayerId>, all: set<LayerId>)
    requires |ls| > 0 && first.synced == s.synced && rest.state.synced == first.synced
    requires all == {ls[0]} + later
    requires FieldsFrom(first, s.fields, {ls[0]}) && InSync(first, ls[0])
    requires FieldsFrom(rest.state, first.fields, later)
    requires rest.Finished? ==> forall x :: x in ls[1..] ==> InSync(rest.state, x)
    requires forall x :: InSync(first, x) ==> InSync(rest.state, x)
    ensures FieldsFrom(rest.state, s.fields, all)
    ensures rest.Finished? ==> forall x :: x in ls ==> InSync(rest.state, x)
  {
    FieldsFromChain(first, rest.state, s.fields, {ls[0]}, later);
    assert ls == [ls[0]] + ls[1..];
  }

  /**
   * The second loop of `bindLayers`: bind each layer to the record
   * `getByLayer` finds. `bindLayer` throws on a layer without a record,
   * after subscribing it, and the loop stops there.
   */
  function BindFound(s: State, ls: seq<LayerId>): (r: Outcome)
    decreases |ls|
    ensures r.Threw? <==> Unrecorded(s.records, ls).Some?
    ensures r.state == s.(subscribed := s.subscribed + Elems(ls[..Reached(s.records, ls)]), fields := r.state.fields)
    ensures FieldsFrom(r.state, s.fields, Elems(ls[..Reached(s.records, ls)]))
    ensures r.Finished? ==> forall x :: x in ls ==> InSync(r.state, x)
    ensures forall x :: InSync(s, x) ==> InSync(r.state, x)
  {
    if |ls| == 0 then
      assert Elems(ls[..0]) == {};
      Finished(s)
    else
      match GetByLayer(s.records, ls[0], None)
      case None =>
        BindFoundThrows(s, ls);
        Threw(BindLayer(s, ls[0], None))
      case Some(_) =>
        var rest := BindFound(BindLayer(s, ls[0], Some(ls[0])), ls[1..]);
        BindFoundCons(s, rest, ls);
        rest
  }

  /** What the loop does binding the head of `ls` to its record, from what it does with the rest. */
  lemma BindFoundCons(s: State, rest: Outcome, ls: seq<LayerId>)
    requires |ls| > 0 && ls[0] in s.records
    requires var first := BindLayer(s, ls[0], Some(ls[0]));
             && (rest.Threw? <==> Unrecorded(first.records, ls[1..]).Some?)
             && rest.state == first.(subscribed := first.subscribed + Elems(ls[1..][..Reached(first.records, ls[1..])]),
                                     fields := rest.state.fields)
             && FieldsFrom(rest.state, first.fields, Elems(ls[1..][..Reached(first.records, ls[1..])]))
             && (rest.Finished? ==> forall x :: x in ls[1..] ==> InSync(rest.state, x))
             && (forall x :: InSync(first, x) ==> InSync(rest.state, x))
    ensures rest.Threw? <==> Unrecorded(s.records, ls).Some?
    ensures rest.state == s.(subscribed := s.subscribed + Elems(ls[..Reached(s.records, ls)]), fields := rest.state.fields)
    ensures FieldsFrom(rest.state, s.fields, Elems(ls[..Reached(s.records, ls)]))
    ensures rest.Finished? ==> forall x :: x in ls ==> InSync(rest.state, x)
    ensures forall x :: InSync(s, x) ==> InSync(rest.state, x)
  {
    var first := BindLayer(s, ls[0], Some(ls[0]));
    assert first.records == s.records;
    BindFoundStep(s, first, rest, ls);
    ReachedStep(s.records, ls);
    SyncChain(s, first, rest, ls, Elems(ls[1..][..Reached(s.records, ls[1..])]), Elems(ls[..Reached(s.records, ls)]));
  }

  /**
   * `bindLayers` as written: adopt and unwrap the collection, load a record
   * for each layer as an append, bind each layer to its record, register
   * the listeners and fire `bind`. A layer left without a record makes the
   * binding loop throw, so no listener is registered and `bind` does not
   * fire. The appends raise `addRecords`, and no `onLoad` is listening yet
   * to drop it again.
   */
  function BindLayersAsWritten(s: State, held: Option<LayerSource>, given: LayerSource, reader: Reader): (r: Outcome)
    requires !s.bound
    ensures var coll := Flatten(Adopt(held, given));
            var records := s.records + ReadAll(reader, coll);
            && (r.Threw? <==> Unrecorded(records, coll).Some?)
            && r.state == s.(layers := coll, records := records, fields := r.state.fields,
                             total := LastTotal(reader, coll, s.total),
                             subscribed := s.subscribed + Elems(coll[..Reached(records, coll)]),
                             addRecords := s.addRecords || AnyRead(reader, coll),
                             bound := r.Finished?, signals := if r.Finished? then s.signals + [Bound] else s.signals)
            && FieldsFrom(r.state, AddFields(s.fields, ReadRecs(reader, coll)), Elems(coll[..Reached(records, coll)]))
            && (r.Finished? ==> forall x :: x in coll ==> InSync(r.state, x))
  {
    var coll := Flatten(Adopt(held, given));
    var loaded := LoadEach(s.(layers := coll), coll, reader);
    var b := BindFound(loaded, coll);
    var t := if b.Finished? then b.state.(bound := true, signals := b.state.signals + [Bound]) else b.state;
    SyncFrame(b.state, t);
    FieldsFromFrame(b.state, t, loaded.fields, Elems(coll[..Reached(loaded.records, coll)]));
    if b.Finished? then Finished(t) else Threw(t)
  }

  /**
   * `bindLayers` with the flag of the initial appends dropped once they are
   * loaded, as `onLoad` would have dropped it had it been listening.
   */
  function BindLayers(s: State, held: Option<LayerSource>, given: LayerSource, reader: Reader): (r: Outcome)
    requires !s.bound
    ensures var coll := Flatten(Adopt(held, given));
            var records := s.records + ReadAll(reader, coll);
            && (r.Threw? <==> Unrecorded(records, coll).Some?)
            && r.state == s.(layers := coll, records := records, fields := r.state.fields,
                             total := LastTotal(reader, coll, s.total),
                             subscribed := s.subscribed + Elems(coll[..Reached(records, coll)]),
                             addRecords := false,
                             bound := r.Finished?, signals := if r.Finished? then s.signals + [Bound] else s.signals)
            && FieldsFrom(r.state, AddFields(s.fields, ReadRecs(reader, coll)), Elems(coll[..Reached(records, coll)]))
            && (r.Finished? ==> forall x :: x in coll ==> InSync(r.state, x))
  {
    var w := BindLayersAsWritten(s, held, given, reader);
    var t := w.state.(addRecords := false);
    SyncFrame(w.state, t);
    FieldsFromFrame(w.state, t, AddFields(s.fields, ReadRecs(reader, Flatten(Adopt(held, given)))),
                    Elems(Flatten(Adopt(held, given))[..Reached(t.records, Flatten(Adopt(held, given)))]));
    if w.Finished? then Finished(t) else Threw(t)
  }
}

=== FILE: wrappers.dfy ===
/** The optional value used where the store answers `undefined`. */
module Wrappers {

  datatype Option<+T> = None | Some(value: T)
}
